=== FILE: README.md ===
# GreenCycle climate pipeline, modelled in Dafny

GreenCycle's backend answers three climate questions about a place:

- **`getWeatherData`** (hourly endpoint): the hourly readings of the climate provider for a latitude, a longitude and a date span. Hours without a temperature are dropped. The rest is reduced to temperature and solar statistics, per-day rainfall totals and 24-hour previews.
- **`getPastWeather`** (trailing window): a place name and a day count. The place is geocoded. The count is clamped to 1..30. One `Day_NN` record comes back per `T2M` key the provider returns for the window that ends yesterday, with the provider's `-999` "no reading" code turned into `null`.
- **`predictCrops`**: a place name. Last calendar month's daily readings are averaged into a climate summary and bucketed into a precipitation level. The summary goes to a text-generation service that proposes crops. A fixed Rice/Wheat list is used when its answer is not JSON.

The model pulls this logic out of the Express handlers as pure functions. The clock, the geocoder, the climate provider and the text-generation service become parameters: `today: Date`, `Geocoder`, `HourlyProvider`/`DailyProvider` and `Advisor`. The HTTP outcome is a `Reply` value, either a body or a status code with its reason.

Modules, one per file:

- `Base`: `Option`, `Result`, the fault and reply datatypes, and status codes 400/404/500.
- `Js`: the slice of JavaScript value semantics the handlers rely on. This covers:
  - readings that are numbers, `null` or missing;
  - `NaN` and the infinities that `+` and `/` produce;
  - JSON objects as ordered key/value sequences.
- `Rounding`: `parseFloat(x.toFixed(2))` on exact reals.
- `Calendar`: proleptic Gregorian dates with a day number, plus next, previous and n-days-later.
- `DateText`: the `YYYYMMDD`, `YYYY-MM-DD` and `YYYY-MM-DD HH:00` text forms, hyphen stripping and zero padding.
- `Stats`: sum, minimum, maximum and mean.
- `Geocoding`: `getCoordinates`, which is shared by two handlers.
- `ClimateProvider`: the daily provider's response and request, shared by the past-weather and crop handlers.
- `HourlyRollup` and `Weather`: `processWeatherData` and `getWeatherData`.
- `PastWeather`: `getPastWeather` and its helpers.
- `Crops`: `fetchNasaData`'s monthly summary and `predictCrops`.

Line numbers below are per file.

## Model

| member | source | states |
|---|---|---|
| DateText.FormatTimestamp | controllers/weatherController.js:6-12 | a 10-character hourly key becomes 16 characters: its expanded date, a space, the key's two hour digits, then `:00` |
| DateText.TimestampDate | controllers/weatherController.js:92-93 | for a numeric 10-digit key, the text before the space of the formatted timestamp is exactly the expanded `YYYY-MM-DD` date, and dropping its hyphens gives back the key's first 8 digits |
| DateText.StripHyphens | controllers/weatherController.js:28-29 | the result has no hyphen and is never longer; a hyphen-free text passes unchanged, so with `DateText.StripHyphensAppend` every other character is kept, in order |
| DateText.StripHyphensLength | controllers/weatherController.js:28-29 | the result is exactly as long as the input minus its hyphens |
| DateText.StripHyphensAppend | controllers/weatherController.js:28-29 | removing hyphens from two texts joined is removing them from each and joining the results |
| DateText.CompactDateShape | controllers/cropController.js:29-30 | the provider's form of a date is exactly eight decimal digits |
| DateText.ExpandDate | controllers/pastWeatherController.js:80 | a key of at least 8 characters becomes 10 characters with hyphens at positions 4 and 7 |
| DateText.IsoToCompact | controllers/cropController.js:29-30 | dropping the hyphens of a `YYYY-MM-DD` date gives the provider's `YYYYMMDD` form of the same date |
| DateText.CompactToIso | controllers/pastWeatherController.js:80 | expanding the provider's `YYYYMMDD` form of a date gives its `YYYY-MM-DD` form |
| DateText.ExpandThenStrip | controllers/pastWeatherController.js:80 | expanding an 8-digit key and then dropping the hyphens restores the key |
| DateText.BeforeSpace | controllers/weatherController.js:93 | the result is the longest prefix without a space, and a space follows it unless the whole string was taken |
| DateText.ParseDecimalPadded | controllers/pastWeatherController.js:81 | zero padding on the left does not change the number a numeral denotes |
| DateText.ParseDecimalOfString | controllers/pastWeatherController.js:81 | reading back the decimal numeral of `n` gives `n` |
| DateText.NatToStringLength | controllers/pastWeatherController.js:81 | numbers below 10 have one digit and numbers from 10 to 99 have two |
| DateText.Digits | controllers/cropController.js:29 | writes `n` with exactly `width` digits, and reading them back gives `n` |
| Calendar.DaysInMonth | controllers/cropController.js:27 | every month has 28 to 31 days, and February has 29 exactly in leap years |
| Calendar.NextDay | controllers/pastWeatherController.js:52-53 | the following day is a valid date whose day number is one more |
| Calendar.PrevDay | controllers/pastWeatherController.js:50-51 | the preceding day is a valid date whose day number is one less, across month and year ends |
| Calendar.AddDays | controllers/pastWeatherController.js:52-53 | moving a date by `n` days, forward or backward, gives a valid date whose day number differs by exactly `n` |
| Calendar.DayNumberOrder | controllers/pastWeatherController.js:49-53 | calendar order and day-number order agree, and equal day numbers mean equal dates |
| Calendar.MonthsFillYear | controllers/cropController.js:27 | the twelve month lengths add up to the year's length |
| Calendar.AdjacentYears | controllers/pastWeatherController.js:49-55 | a date at most 365 days before another lies in the same year or the one before |
| Rounding.Round2 | controllers/pastWeatherController.js:35 | the rounded value is within half a cent of the input and keeps its sign |
| Rounding.Round2Cents | controllers/weatherController.js:118 | the rounded value has at most two decimals |
| Rounding.Round2OfCents | controllers/weatherController.js:154 | a value that already has two decimals is not changed by rounding |
| Rounding.Round2Idempotent | controllers/weatherController.js:154 | rounding twice equals rounding once |
| Rounding.Round2Monotone | controllers/weatherController.js:130-132 | rounding never reverses the order of two values |
| Js.Lookup | controllers/pastWeatherController.js:83-86 | a key is found exactly when some entry carries it, and the value found is that of an entry with the key |
| Js.SumValues | controllers/cropController.js:45 | with no missing reading the sum is finite and equals the arithmetic sum, `null` readings adding 0; one missing reading makes it `NaN` |
| Js.Divide | controllers/cropController.js:49-57 | a positive count gives the quotient; a zero count gives `Infinity`, `-Infinity` or `NaN` by the sign of the total; `NaN` stays `NaN` |
| Stats.MeanBetween | controllers/weatherController.js:129-133 | the mean of a non-empty list lies between its minimum and its maximum |
| Stats.Min | controllers/weatherController.js:131 | the minimum is one of the values and is at most every value |
| Stats.Max | controllers/weatherController.js:132 | the maximum is one of the values and is at least every value |
| Geocoding.GetCoordinates | controllers/pastWeatherController.js:5-16 | an unconfigured key fails first; success happens exactly when the geocoder returns a non-empty list, and gives its first match; an empty list is "place not found"; a failed request is an upstream failure |
| Geocoding.KeyCheckedFirst | controllers/cropController.js:8-21 | without a key the geocoder's answer makes no difference to the outcome |
| HourlyRollup.HourKeyCount | controllers/weatherController.js:85-87 | never more than the number of keys, and zero exactly when no key passes the length-10, all-digits filter (the count itself is only logged) |
| HourlyRollup.Retain | controllers/weatherController.js:99-107 | at most one hour per entry, and no retained hour has the -999 temperature |
| HourlyRollup.RetainMembers | controllers/weatherController.js:85-107 | an hour is retained exactly when some entry has a numeric 10-digit key and a numeric temperature other than -999 |
| HourlyRollup.RetainAppend | controllers/weatherController.js:91-107 | retaining the concatenation of two key lists retains each in turn, so retained hours keep input order |
| HourlyRollup.DailyRainfall | controllers/weatherController.js:108-111 | one entry per day (in no stated order); each day's accumulated total equals the sum of that day's strictly positive readings; a day has an entry exactly when it has a positive reading |
| HourlyRollup.RainfallByDay | controllers/weatherController.js:116-119 | the rainfall array has distinct days, exactly the days with a positive reading, each with its rounded total |
| HourlyRollup.RainyDaysBound | controllers/weatherController.js:155 | `rainy_days` is at most the number of distinct days among the retained hours |
| HourlyRollup.RainfallTotalNonNegative | controllers/weatherController.js:169 | no day's rainfall and no rainfall total is negative |
| HourlyRollup.TemperatureSummary | controllers/weatherController.js:122-133 | all three statistics are `null` exactly when nothing is retained; otherwise the average is the rounded mean of the retained temperatures, min and max are the rounded extremes, and rounded min ≤ rounded average ≤ rounded max |
| HourlyRollup.SolarAverage | controllers/weatherController.js:123-137 | `null` exactly when nothing is retained; with no missing reading it is the rounded arithmetic mean over every retained hour, -999 included and `null` as 0; `NaN` when a reading is missing |
| HourlyRollup.Preview | controllers/weatherController.js:165 | the preview is the first min(24, n) elements, in order |
| HourlyRollup.ProcessWeatherData | controllers/weatherController.js:73-113 | fails exactly when the `parameter` object or its `T2M` series is missing, or when some key passes the filter and the rain or solar series is missing; otherwise the report is built from the retained hours |
| HourlyRollup.Summarize | controllers/weatherController.js:140-180 | latitude is coordinate [1], longitude [0] and elevation [2]; `days_covered` is the retained count over 24; summary and detail agree on statistics and total; `rainy_days` is the rainfall array's length; both previews are the first min(24, n) retained hours |
| Weather.ProviderDate | controllers/weatherController.js:28-29 | an absent date gives the default; a given date loses exactly its hyphens (its length drops by their number) and nothing else |
| Weather.ProviderDateOfIso | controllers/weatherController.js:28 | a `YYYY-MM-DD` date is sent as its `YYYYMMDD` form |
| Weather.ProviderDateOfCompact | controllers/weatherController.js:28 | a date already in `YYYYMMDD` form is sent unchanged |
| Weather.GetWeatherData | controllers/weatherController.js:15-70 | missing latitude or longitude gives 400; otherwise the provider is asked for the hyphen-free dates (defaults `20230101`/`20230103`); a failed request or a malformed response gives 500; the report's requested period names the dates sent |
| Weather.CoordinatesCheckedFirst | controllers/weatherController.js:20-25 | without latitude or longitude the provider's answer makes no difference |
| Weather.SolarSentinelAveragedIn | controllers/weatherController.js:127-136 | solar readings -999 and 1 average to -499: the code is not filtered |
| PastWeather.FormatNasaValue | controllers/pastWeatherController.js:34-36 | exactly -999 becomes `null`; any other number becomes a number within half a cent of it, never `null`; a `null` or missing value throws |
| PastWeather.CleanseIdempotent | controllers/pastWeatherController.js:35 | cleansing an already cleansed number again leaves it unchanged unless it was rounded onto -999; a cleansed `null` is outside the lemma, since cleansing `null` throws |
| PastWeather.CleanseNearSentinel | controllers/pastWeatherController.js:35 | -999.001 is rounded onto -999, which a second cleansing would turn into `null` |
| PastWeather.NumDays | controllers/pastWeatherController.js:43 | the day count lies in 1..30, counts below 1 give 1, counts above 30 give 30, and counts in range are kept |
| PastWeather.TrailingWindow | controllers/pastWeatherController.js:49-53 | the window ends the day before today, starts no later than it ends, and spans exactly the clamped number of days |
| PastWeather.TrailingWindowYears | controllers/pastWeatherController.js:49-53 | the window reaches back at most into the year before today's |
| PastWeather.WindowParams | controllers/pastWeatherController.js:54-55 | both window ends are sent as 8-digit `YYYYMMDD` strings of the window's dates |
| PastWeather.DayKeyShape | controllers/pastWeatherController.js:81 | every key starts with `Day_` and has two digits up to the 99th day |
| PastWeather.DayKeyNumber | controllers/pastWeatherController.js:81 | the number after `Day_` is the 1-based position |
| PastWeather.DayKeyInjective | controllers/pastWeatherController.js:81 | two positions share a key exactly when they are equal |
| PastWeather.Cleansed | controllers/pastWeatherController.js:84-86 | cleansing a day's value of a variable throws exactly when the series is absent or the day's value is not a number, and gives `null` for the -999 code |
| PastWeather.DayFor | controllers/pastWeatherController.js:79-88 | a record is built exactly when the temperature is a number and the rain, humidity and solar series are present with a number for the key; its date is the key expanded to `YYYY-MM-DD`, each of temperature, rainfall, humidity and solar is that day's reading cleansed (-999 to `null`, others rounded), `ndvi` is `null`, and failures are malformed responses |
| PastWeather.AssembleDays | controllers/pastWeatherController.js:77-89 | succeeds exactly when every `T2M` entry yields a record, and then has one entry per `T2M` key |
| PastWeather.Records | controllers/pastWeatherController.js:78-88 | one record per `T2M` entry, in key order, each the one built from that entry |
| PastWeather.Keyed | controllers/pastWeatherController.js:81 | the i-th record is stored under the i-th `Day_NN` key, in order, none lost |
| PastWeather.AssembledEntries | controllers/pastWeatherController.js:80-87 | every assembled entry is keyed `Day_` with its 1-based position, carries its key's expanded date and a `null` `ndvi` |
| PastWeather.AssemblyFails | controllers/pastWeatherController.js:83-86 | one entry that cannot be built fails the whole response |
| PastWeather.BuildDays | controllers/pastWeatherController.js:77-89 | the loop produces the reference assembly; the i-th entry is keyed `Day_` with i+1, carries the i-th key's expanded date and a `null` `ndvi` |
| PastWeather.Elevation | controllers/pastWeatherController.js:27 | coordinate [2] when it is present and non-zero, otherwise 0 |
| PastWeather.GetPastWeather | controllers/pastWeatherController.js:32-96 | missing place or days gives 400 before geocoding; geocoder failures give 500; the provider is asked for the trailing window's dates; its failure gives 500 |
| PastWeather.Respond | controllers/pastWeatherController.js:59-91 | 404 exactly when the parameters or the `T2M` series are missing; a body exactly when both are present and every `T2M` entry builds a record, with the geocoded position, the defaulted elevation and the reference assembly as its days; otherwise 500 |
| PastWeather.ValidatedBeforeFetch | controllers/pastWeatherController.js:40-46 | with place or days missing, neither the geocoder nor the provider influences the outcome |
| Crops.PreviousMonth | controllers/cropController.js:25-27 | the window runs from day 1 to the last day of the month before today's (December of last year in January); its last day directly precedes the first of today's month, and it spans that month's length |
| Crops.CoversPreviousMonth | controllers/cropController.js:26-27 | a date lies in the window exactly when it falls in the previous calendar month |
| Crops.MonthParams | controllers/cropController.js:29-30 | both ends are sent as 8-digit `YYYYMMDD` strings of the window's dates |
| Crops.MonthlyMean | controllers/cropController.js:41-57 | a variable without a series is `NaN`; with no missing reading and a non-zero `T2M` count it is the sum of all readings (-999 included, `null` as 0) over that count; a zero count gives the IEEE quotient by 0 (±Infinity or `NaN`) |
| Crops.MonthlyMeanWithin | controllers/cropController.js:41-49 | over a complete numeric series the average lies between any bounds of its readings |
| Crops.SeriesMeanWithin | controllers/cropController.js:45-49 | the sum of a series of numbers divided by its length is finite and lies between any bounds of its readings |
| Crops.LevelOf | controllers/cropController.js:53-54 | `Low` exactly at 0; `Moderate` exactly for other values below 5, negatives and `-Infinity` included; `High` for 5 and above, `NaN` and `Infinity` |
| Crops.LevelMonotone | controllers/cropController.js:53-54 | among non-negative amounts more precipitation never gives a lower level |
| Crops.MonthlyClimate | controllers/cropController.js:39-58 | fails exactly when the `T2M` series is missing; every field is its variable's monthly mean over the `T2M` count, and the level is that of the reported precipitation |
| Crops.WorkedExample | controllers/cropController.js:48-54 | temperatures 20, 22, 24 and precipitation 0, 2, 10 give 22 degrees, 4 mm and `Moderate`; a variable not returned is `NaN` |
| Crops.SentinelAveragedIn | controllers/cropController.js:45-49 | a -999 day is averaged in: -999 and 21 average to -489 |
| Crops.ParseCrops | controllers/cropController.js:110-118 | parsed text is served as is; unparseable text gives exactly Rice (80, Kharif) and Wheat (70, Rabi) with their fixed reasons |
| Crops.PredictCrops | controllers/cropController.js:62-132 | a missing service key gives 500 before anything else; then a missing place gives 400; geocoder failures give 500; otherwise the provider is asked at the geocoded position |
| Crops.FetchAndAdvise | controllers/cropController.js:36-38 | the provider is asked at the geocoded position for the previous month's first and last day in `YYYYMMDD` form; a failed request gives 500 |
| Crops.Advise | controllers/cropController.js:103-126 | a body exactly when parameters and `T2M` are present and the service answers; the body carries the place, today's `YYYY-MM-DD` date, the monthly summary and the parsed or fallback crops; every other outcome is 500 |
| Crops.AiKeyCheckedFirst | controllers/cropController.js:64-69 | without the service key the outcome is a 500 whatever the place |

## Left out

- Express wiring (`app.js`, `routes/*.js`), the insights handler, logging and the unit labels in the JSON bodies. They hold no pipeline logic.
- Outbound requests: the geocoder, the two climate-provider endpoints and the text-generation service are function parameters. The prompt text is not modelled; the service sees the place and the summary.
- Clock and time zone: `today` is a parameter in UTC. The local-time `Date` constructors next to UTC `toISOString` can shift a window end by a day outside UTC; the model uses the intended calendar dates.
- Dates are formatted only for years 0 to 9999 (`TrailingWindow` and `PreviousMonth` themselves work for any year).
- Floating point: numbers are exact reals. `toFixed(2)` is rounding half away from zero on the exact value, without binary representation effects.
- `parseInt` of a non-numeric `days` (`NaN` passes `Math.max`/`Math.min` unchanged) is not modelled: `days` is a parsed integer or absent.
- `parseFloat` of the query coordinates and of the geocoder's text fields is not modelled: coordinates arrive as numbers, query text is passed through.
- `!isNaN(ts)` on hourly keys is modelled as "all ASCII digits". JavaScript also accepts keys such as `" 123456789"` or `"1e10000000"`.
- JSON objects are key/value sequences in key order, with lookups taking the first entry for a key. JavaScript's ordering of integer-like keys and duplicate keys are not modelled.
- `JSON.parse` is modelled as "a list of crops or a failure". Valid JSON that is not an array of crops is not distinguished.
- Unguarded reads of the provider responses are assumed to succeed: `properties` in both responses, `header` in the hourly response (its `start` and `end` fill the actual period), `geometry` and its `coordinates` in the hourly response (a missing `geometry` throws when the location is read), and `coordinates` inside a present daily `geometry` (a `geometry` without `coordinates` throws). A missing `parameter` object is modelled: `getPastWeather` answers 404, `predictCrops` fails with 500 when it reads `T2M` from it, and the hourly roll-up fails with a `TypeError` (500).
- `Math.min(...)`/`Math.max(...)` argument-count limits are not modelled.
- PastWeather.FormatNasaValue: states rounding as "within half a cent and not `null`" rather than the exact two-decimal value; the exact value is `Rounding.Round2`.
- PastWeather.ColumnsOf: the three series are looked up once per response rather than once per day; the lookups are pure, so the records are the same.
- PastWeather.CleanseIdempotent: re-cleansing is not idempotent for readings within half a cent of -999 (they round onto -999, then become `null`); the lemma excludes them and `CleanseNearSentinel` exhibits one. Re-cleansing a reading cleansed to `null` throws, since `null` has no number to format (`FormatNasaValue(Null)` is an error); the lemma covers only cleansed numbers.
- Crops.PredictCrops: the result list of the text-generation service is not checked for the promised five crops or percentage range; the source does not check it either.
- HourlyRollup.DailyRainfall: the order of the days (the order in which each first has rain, as object insertion order gives) is not stated; membership, distinctness and totals are.

=== FILE: base.dfy ===
/**
  Failure-carrying datatypes shared by the three controllers: an optional
  value, a computation that may throw, and the HTTP reply a handler sends.
 */
module Base {

  datatype Option<+T> = None | Some(value: T)

  /** Why a handler's `try` block was left through its `catch`. */
  datatype Fault =
    | LocationKeyMissing   // the geocoder's key is not configured
    | PlaceNotFound        // the geocoder returned no match
    | UpstreamFailed       // a provider request failed (network, timeout, non-2xx)
    | MalformedResponse    // a provider field that the code dereferences was absent
    | AiFailed             // the generative model call failed

  /** The outcome of code that may throw. */
  datatype Result<+T> = Ok(value: T) | Err(fault: Fault)

  /** Why a handler answered with an error status. */
  datatype Reason =
    | MissingParameters    // a required query parameter was empty or absent
    | NoWeatherData        // the provider sent no temperature series
    | AiKeyMissing         // the generative model's key is not configured
    | Caught(fault: Fault) // an exception reached the handler's catch block

  /** What a request handler sends: a JSON body, or a status code and an error. */
  datatype Reply<+T> = Reply(body: T) | Status(code: int, reason: Reason)

  const BadRequest: int := 400
  const NotFound: int := 404
  const ServerError: int := 500
}

=== FILE: calendar.dfy ===
/**
  Calendar dates of the proleptic Gregorian calendar (astronomical year
  numbering, as JavaScript's `Date` uses) and day arithmetic on them.
  `DayNumber` counts days from 0001-01-01 and is the yardstick the window
  calculations are proved against.
 */
module Calendar {

  datatype Date = Date(year: int, month: int, day: int)

  predicate IsLeapYear(y: int)
  {
    y % 4 == 0 && (y % 100 != 0 || y % 400 == 0)
  }

  function DaysInMonth(y: int, m: int): (n: int)
    requires 1 <= m <= 12
    ensures 28 <= n <= 31
    ensures m == 2 ==> (n == 29 <==> IsLeapYear(y))
  {
    if m == 2 then (if IsLeapYear(y) then 29 else 28)
    else if m == 4 || m == 6 || m == 9 || m == 11 then 30
    else 31
  }

  /** A span of days, both ends included. */
  datatype Window = Window(start: Date, end: Date)

  predicate Valid(d: Date)
  {
    1 <= d.month <= 12 && 1 <= d.day <= DaysInMonth(d.year, d.month)
  }

  function YearLength(y: int): int
  {
    if IsLeapYear(y) then 366 else 365
  }

  /** Days from 0001-01-01 to January 1st of year `y` (negative before year 1). */
  function DaysBeforeYear(y: int): int
    decreases if y >= 1 then y - 1 else 1 - y
  {
    if y > 1 then DaysBeforeYear(y - 1) + YearLength(y - 1)
    else if y == 1 then 0
    else DaysBeforeYear(y + 1) - YearLength(y)
  }

  /** Days from January 1st of `y` to the first day of month `m` (13 = next year). */
  function DaysBeforeMonth(y: int, m: int): int
    requires 1 <= m <= 13
  {
    if m == 1 then 0 else DaysBeforeMonth(y, m - 1) + DaysInMonth(y, m - 1)
  }

  function DayNumber(d: Date): int
    requires Valid(d)
  {
    DaysBeforeYear(d.year) + DaysBeforeMonth(d.year, d.month) + d.day - 1
  }

  /** `a` is strictly earlier than `b` on the calendar. */
  predicate Before(a: Date, b: Date)
  {
    a.year < b.year
    || (a.year == b.year && a.month < b.month)
    || (a.year == b.year && a.month == b.month && a.day < b.day)
  }

  lemma YearStep(y: int)
    ensures DaysBeforeYear(y + 1) == DaysBeforeYear(y) + YearLength(y)
  {
  }

  lemma MonthsFillYear(y: int)
    ensures DaysBeforeMonth(y, 13) == YearLength(y)
  {
    assert DaysBeforeMonth(y, 2) == 31;
    assert DaysBeforeMonth(y, 3) == 31 + DaysInMonth(y, 2);
    assert DaysBeforeMonth(y, 4) == DaysBeforeMonth(y, 3) + 31;
    assert DaysBeforeMonth(y, 5) == DaysBeforeMonth(y, 4) + 30;
    assert DaysBeforeMonth(y, 6) == DaysBeforeMonth(y, 5) + 31;
    assert DaysBeforeMonth(y, 7) == DaysBeforeMonth(y, 6) + 30;
    assert DaysBeforeMonth(y, 8) == DaysBeforeMonth(y, 7) + 31;
    assert DaysBeforeMonth(y, 9) == DaysBeforeMonth(y, 8) + 31;
    assert DaysBeforeMonth(y, 10) == DaysBeforeMonth(y, 9) + 30;
    assert DaysBeforeMonth(y, 11) == DaysBeforeMonth(y, 10) + 31;
    assert DaysBeforeMonth(y, 12) == DaysBeforeMonth(y, 11) + 30;
    assert DaysBeforeMonth(y, 13) == DaysBeforeMonth(y, 12) + 31;
  }

  function NextDay(d: Date): (r: Date)
    requires Valid(d)
    ensures Valid(r) && DayNumber(r) == DayNumber(d) + 1
  {
    if d.day < DaysInMonth(d.year, d.month) then Date(d.year, d.month, d.day + 1)
    else if d.month < 12 then Date(d.year, d.month + 1, 1)
    else
      MonthsFillYear(d.year);
      YearStep(d.year);
      Date(d.year + 1, 1, 1)
  }

  function PrevDay(d: Date): (r: Date)
    requires Valid(d)
    ensures Valid(r) && DayNumber(r) == DayNumber(d) - 1
  {
    if d.day > 1 then Date(d.year, d.month, d.day - 1)
    else if d.month > 1 then Date(d.year, d.month - 1, DaysInMonth(d.year, d.month - 1))
    else
      MonthsFillYear(d.year - 1);
      YearStep(d.year - 1);
      Date(d.year - 1, 12, 31)
  }

  /** `d` moved by `n` days, forward or backward, as `Date.setDate` does. */
  function AddDays(d: Date, n: int): (r: Date)
    requires Valid(d)
    ensures Valid(r) && DayNumber(r) == DayNumber(d) + n
    decreases if n >= 0 then n else -n
  {
    if n == 0 then d
    else if n > 0 then AddDays(NextDay(d), n - 1)
    else AddDays(PrevDay(d), n + 1)
  }

  lemma {:induction false} MonthsBefore(y: int, m: int, m': int)
    requires 1 <= m < m' <= 13
    ensures DaysBeforeMonth(y, m) + DaysInMonth(y, m) <= DaysBeforeMonth(y, m')
    decreases m'
  {
    if m' > m + 1 {
      MonthsBefore(y, m, m' - 1);
    }
  }

  lemma {:induction false} YearsBefore(y: int, y': int)
    requires y < y'
    ensures DaysBeforeYear(y) + YearLength(y) <= DaysBeforeYear(y')
    decreases y' - y
  {
    YearStep(y);
    if y' > y + 1 {
      YearsBefore(y + 1, y');
      YearStep(y + 1);
    }
  }

  lemma DaysBeforeMonthNonNegative(y: int, m: int)
    requires 1 <= m <= 13
    ensures DaysBeforeMonth(y, m) >= 0
  {
  }

  /** A date lies inside its own year's span of day numbers. */
  lemma {:induction false} InsideYear(d: Date)
    requires Valid(d)
    ensures DaysBeforeYear(d.year) <= DayNumber(d) < DaysBeforeYear(d.year) + YearLength(d.year)
  {
    DaysBeforeMonthNonNegative(d.year, d.month);
    MonthsBefore(d.year, d.month, 13);
    MonthsFillYear(d.year);
  }

  /** Day numbers order dates exactly as the calendar does. */
  lemma {:induction false} DayNumberOrder(a: Date, b: Date)
    requires Valid(a) && Valid(b)
    ensures Before(a, b) <==> DayNumber(a) < DayNumber(b)
    ensures a == b <==> DayNumber(a) == DayNumber(b)
  {
    if Before(a, b) {
      EarlierHasSmallerNumber(a, b);
    } else if Before(b, a) {
      EarlierHasSmallerNumber(b, a);
    }
  }

  lemma {:induction false} EarlierHasSmallerNumber(a: Date, b: Date)
    requires Valid(a) && Valid(b) && Before(a, b)
    ensures DayNumber(a) < DayNumber(b)
  {
    if a.year < b.year {
      InsideYear(a);
      InsideYear(b);
      YearsBefore(a.year, b.year);
    } else if a.month < b.month {
      MonthsBefore(a.year, a.month, b.month);
    }
  }

  /** Two dates less than a year apart are in the same or in adjacent years. */
  lemma {:induction false} AdjacentYears(a: Date, b: Date)
    requires Valid(a) && Valid(b)
    requires 0 <= DayNumber(b) - DayNumber(a) <= 365
    ensures b.year - 1 <= a.year <= b.year
  {
    DayNumberOrder(a, b);
    InsideYear(a);
    InsideYear(b);
    if a.year < b.year - 1 {
      YearsBefore(a.year, b.year - 1);
      YearStep(b.year - 1);
      assert false;
    }
  }
}

=== FILE: climate_provider.dfy ===
/**
  The daily endpoint of the climate provider, as both the past-weather and
  the crop handlers call it.
 */
module ClimateProvider {
  import opened Base
  import opened Js
  import opened Geocoding

  /** The daily provider response: its `parameter` series and `geometry` coordinates. */
  datatype DailyResponse = DailyResponse(parameter: Option<Params>, geometry: Option<seq<real>>)

  /** The daily provider: coordinates, start and end to a response, `None` when the request fails. */
  type DailyProvider = (Coords, string, string) -> Option<DailyResponse>
}

=== FILE: crop.dfy ===
/**
  `predictCrops`: last month's climate at a place, summarised from the
  climate provider's daily series, handed to a text-generation service that
  proposes crops, with a fixed fallback list when its answer is not JSON.
 */
module Crops {
  import opened Base
  import opened Js
  import opened Calendar
  import opened DateText
  import opened Geocoding
  import opened ClimateProvider
  import Stats

  // ---------------------------------------------------------------------------
  // The previous calendar month

  /**
    The window of the month before `today`'s: its first day up to its last,
    stepping back into December of the previous year from January.
   */
  function PreviousMonth(today: Date): (w: Window)
    requires Valid(today)
    ensures Valid(w.start) && Valid(w.end)
    ensures w.start.day == 1 && w.start.year == w.end.year && w.start.month == w.end.month
    ensures w.end.year * 12 + w.end.month + 1 == today.year * 12 + today.month
    ensures DayNumber(w.end) + 1 == DayNumber(Date(today.year, today.month, 1))
    ensures DayNumber(w.end) - DayNumber(w.start) + 1 == DaysInMonth(w.end.year, w.end.month)
  {
    var year := if today.month == 1 then today.year - 1 else today.year;
    var month := if today.month == 1 then 12 else today.month - 1;
    var w := Window(Date(year, month, 1), Date(year, month, DaysInMonth(year, month)));
    assert w.end == PrevDay(Date(today.year, today.month, 1));
    w
  }

  /** A date lies in the window exactly when it falls in the previous month. */
  lemma CoversPreviousMonth(today: Date, d: Date)
    requires Valid(today) && Valid(d)
    ensures var w := PreviousMonth(today);
      DayNumber(w.start) <= DayNumber(d) <= DayNumber(w.end)
      <==> d.year == w.end.year && d.month == w.end.month
  {
    var w := PreviousMonth(today);
    DayNumberOrder(d, w.start);
    DayNumberOrder(w.end, d);
  }

  /** The window's ends as sent to the provider: each date in output form, hyphens dropped. */
  function MonthParams(today: Date): (p: (string, string))
    requires Valid(today) && 1 <= today.year <= 9999
    ensures var w := PreviousMonth(today);
      && 0 <= w.end.year <= 9999
      && p == (CompactDate(w.start), CompactDate(w.end))
    ensures |p.0| == 8 && |p.1| == 8 && AllDigits(p.0) && AllDigits(p.1)
  {
    var w := PreviousMonth(today);
    IsoToCompact(w.start);
    IsoToCompact(w.end);
    CompactDateShape(w.start);
    CompactDateShape(w.end);
    (StripHyphens(IsoDate(w.start)), StripHyphens(IsoDate(w.end)))
  }

  // ---------------------------------------------------------------------------
  // Monthly means

  const TemperatureVar: string := "T2M"
  const TemperatureMaxVar: string := "T2M_MAX"
  const TemperatureMinVar: string := "T2M_MIN"
  const PrecipitationVar: string := "PRECTOTCORR"
  const SolarVar: string := "ALLSKY_SFC_SW_DWN"
  const WindVar: string := "WS2M"
  const HumidityVar: string := "RH2M"

  /** No day of the series is missing (`null` readings still count, as 0). */
  predicate NoneMissing(series: Series)
  {
    forall i :: 0 <= i < |series| ==> !series[i].1.Undefined?
  }

  /**
    `sum[name] / count`: the sum of every reading of the variable (the -999
    code and `null` included) over the day count of `T2M`.
   */
  function MonthlyMean(params: Params, name: string, count: nat): (m: JsNum)
    ensures Lookup(params, name).None? ==> m == NaN
    ensures Lookup(params, name).Some? && NoneMissing(Lookup(params, name).value) && count > 0 ==>
      m == Fin(NumberSum(Values(Lookup(params, name).value)) / count as real)
    ensures Lookup(params, name).Some? && count == 0 ==>
      m == Divide(SumValues(Values(Lookup(params, name).value)), 0)
  {
    match Lookup(params, name)
    case None => NaN
    case Some(series) => Divide(SumValues(Values(series)), count)
  }

  /** Over a complete series of numbers the mean lies between its bounds. */
  lemma MonthlyMeanWithin(params: Params, name: string, lo: real, hi: real)
    requires Lookup(params, name).Some?
    requires var s := Lookup(params, name).value;
      |s| > 0 && forall i :: 0 <= i < |s| ==> s[i].1.Num? && lo <= s[i].1.n <= hi
    ensures var m := MonthlyMean(params, name, |Lookup(params, name).value|);
      m.Fin? && lo <= m.x <= hi
  {
    var s := Lookup(params, name).value;
    SeriesMeanWithin(Values(s), lo, hi);
  }

  lemma SeriesMeanWithin(vs: seq<JsValue>, lo: real, hi: real)
    requires |vs| > 0
    requires forall i :: 0 <= i < |vs| ==> vs[i].Num? && lo <= vs[i].n <= hi
    ensures var m := Divide(SumValues(vs), |vs|); m.Fin? && lo <= m.x <= hi
  {
    NumberMeanWithin(vs, lo, hi);
    ReadingsSum(vs);
  }

  lemma NumberMeanWithin(vs: seq<JsValue>, lo: real, hi: real)
    requires |vs| > 0
    requires forall i :: 0 <= i < |vs| ==> vs[i].Num? && lo <= vs[i].n <= hi
    ensures var m := Divide(Fin(NumberSum(vs)), |vs|); m.Fin? && lo <= m.x <= hi
  {
    NumberSumBounds(vs, lo, hi);
    QuotientWithin(NumberSum(vs), |vs|, lo, hi);
  }

  lemma ReadingsSum(vs: seq<JsValue>)
    requires forall i :: 0 <= i < |vs| ==> vs[i].Num?
    ensures SumValues(vs) == Fin(NumberSum(vs))
  {
  }

  lemma QuotientWithin(total: real, n: nat, lo: real, hi: real)
    requires n > 0
    requires n as real * lo <= total <= n as real * hi
    ensures var m := Divide(Fin(total), n); m.Fin? && lo <= m.x <= hi
  {
    Stats.QuotientBetween(total, n as real, lo, hi);
  }

  lemma {:induction false} NumberSumBounds(vs: seq<JsValue>, lo: real, hi: real)
    requires forall i :: 0 <= i < |vs| ==> vs[i].Num? && lo <= vs[i].n <= hi
    ensures |vs| as real * lo <= NumberSum(vs) <= |vs| as real * hi
  {
    if |vs| > 0 {
      var prefix := vs[..|vs| - 1];
      assert forall i :: 0 <= i < |prefix| ==> prefix[i] == vs[i];
      NumberSumBounds(prefix, lo, hi);
    }
  }

  datatype PrecipitationLevel = Low | Moderate | High

  /** Exactly zero is Low, anything else below 5 is Moderate, the rest (including NaN) is High. */
  function LevelOf(p: JsNum): (l: PrecipitationLevel)
    ensures l == Low <==> p == Fin(0.0)
    ensures l == Moderate <==> (p.Fin? && p.x != 0.0 && p.x < 5.0) || p == NegInf
    ensures l == High <==> (p.Fin? && p.x >= 5.0) || p == NaN || p == PosInf
  {
    if p == Fin(0.0) then Low
    else if LessThan(p, 5.0) then Moderate
    else High
  }

  function Rank(l: PrecipitationLevel): nat
  {
    match l
    case Low => 0
    case Moderate => 1
    case High => 2
  }

  /** Among non-negative amounts, more precipitation never lowers the level. */
  lemma LevelMonotone(a: real, b: real)
    requires 0.0 <= a <= b
    ensures Rank(LevelOf(Fin(a))) <= Rank(LevelOf(Fin(b)))
  {
  }

  /** `{temperature_avg, ..., humidity}` of `fetchNasaData`. */
  datatype ClimateSummary = ClimateSummary(
    temperatureAvg: JsNum,
    temperatureMax: JsNum,
    temperatureMin: JsNum,
    precipitation: JsNum,
    precipitationLevel: PrecipitationLevel,
    solarRadiation: JsNum,
    windSpeed: JsNum,
    humidity: JsNum)

  /**
    The monthly summary of a provider `parameter` object. Without a `T2M`
    series there are no day keys to count and the handler throws.
   */
  function MonthlyClimate(params: Params): (r: Result<ClimateSummary>)
    ensures r.Err? <==> Lookup(params, TemperatureVar).None?
    ensures r.Err? ==> r.fault == MalformedResponse
    ensures r.Ok? ==> r.value.precipitationLevel == LevelOf(r.value.precipitation)
    ensures r.Ok? ==> var n := |Lookup(params, TemperatureVar).value|;
      && r.value.temperatureAvg == MonthlyMean(params, TemperatureVar, n)
      && r.value.temperatureMax == MonthlyMean(params, TemperatureMaxVar, n)
      && r.value.temperatureMin == MonthlyMean(params, TemperatureMinVar, n)
      && r.value.precipitation == MonthlyMean(params, PrecipitationVar, n)
      && r.value.solarRadiation == MonthlyMean(params, SolarVar, n)
      && r.value.windSpeed == MonthlyMean(params, WindVar, n)
      && r.value.humidity == MonthlyMean(params, HumidityVar, n)
  {
    match Lookup(params, TemperatureVar)
    case None => Err(MalformedResponse)
    case Some(t2m) =>
      var n := |t2m|;
      var precipitation := MonthlyMean(params, PrecipitationVar, n);
      Ok(ClimateSummary(
        MonthlyMean(params, TemperatureVar, n),
        MonthlyMean(params, TemperatureMaxVar, n),
        MonthlyMean(params, TemperatureMinVar, n),
        precipitation,
        LevelOf(precipitation),
        MonthlyMean(params, SolarVar, n),
        MonthlyMean(params, WindVar, n),
        MonthlyMean(params, HumidityVar, n)))
  }

  /** Three days of 20, 22 and 24 degrees and 0, 2 and 10 mm: 22 degrees, 4 mm, moderate. */
  lemma WorkedExample()
    ensures var params := [
        (TemperatureVar, [("20240101", Num(20.0)), ("20240102", Num(22.0)), ("20240103", Num(24.0))]),
        (PrecipitationVar, [("20240101", Num(0.0)), ("20240102", Num(2.0)), ("20240103", Num(10.0))])];
      var r := MonthlyClimate(params);
      && r.Ok?
      && r.value.temperatureAvg == Fin(22.0)
      && r.value.precipitation == Fin(4.0)
      && r.value.precipitationLevel == Moderate
      && r.value.humidity == NaN
  {
    var t: Series := [("20240101", Num(20.0)), ("20240102", Num(22.0)), ("20240103", Num(24.0))];
    var p: Series := [("20240101", Num(0.0)), ("20240102", Num(2.0)), ("20240103", Num(10.0))];
    var params := [(TemperatureVar, t), (PrecipitationVar, p)];
    assert Lookup(params, TemperatureVar) == Some(t);
    assert Lookup(params, PrecipitationVar) == Some(p);
    assert Values(t) == [Num(20.0), Num(22.0), Num(24.0)];
    NumberSumOfThree(Num(20.0), Num(22.0), Num(24.0));
    assert Values(p) == [Num(0.0), Num(2.0), Num(10.0)];
    NumberSumOfThree(Num(0.0), Num(2.0), Num(10.0));
    assert NoneMissing(t) && NoneMissing(p);
  }

  /** A missing day (-999) is averaged in like any reading. */
  lemma SentinelAveragedIn()
    ensures var params := [(TemperatureVar, [("20240101", Num(Sentinel)), ("20240102", Num(21.0))])];
      MonthlyClimate(params).Ok? && MonthlyClimate(params).value.temperatureAvg == Fin(-489.0)
  {
    var t: Series := [("20240101", Num(Sentinel)), ("20240102", Num(21.0))];
    var params := [(TemperatureVar, t)];
    assert Lookup(params, TemperatureVar) == Some(t);
    assert Values(t) == [Num(Sentinel), Num(21.0)];
    assert [Num(Sentinel)][..0] == [];
    assert NumberSum([Num(Sentinel)]) == -999.0;
    assert [Num(Sentinel), Num(21.0)][..1] == [Num(Sentinel)];
    assert NumberSum(Values(t)) == -978.0;
    assert NoneMissing(t);
  }

  lemma NumberSumOfThree(a: JsValue, b: JsValue, c: JsValue)
    ensures NumberSum([a, b, c]) == ValueOf(a) + ValueOf(b) + ValueOf(c)
  {
    assert [a][..0] == [];
    assert NumberSum([a]) == ValueOf(a);
    assert [a, b][..1] == [a];
    assert NumberSum([a, b]) == ValueOf(a) + ValueOf(b);
    assert [a, b, c][..2] == [a, b];
  }

  // ---------------------------------------------------------------------------
  // Crop suggestions

  datatype Crop = Crop(name: string, suitability: int, reason: string, idealSeason: string)

  /** The list served when the generated text is not JSON. */
  const FallbackCrops: seq<Crop> := [
    Crop("Rice", 80, "Moderate temperature and sufficient humidity", "Kharif"),
    Crop("Wheat", 70, "Cool temperature suitable for wheat", "Rabi")
  ]

  /**
    What the text-generation service does with the prompt: fail, or answer
    text whose `JSON.parse` is `parsed` (`None` when it throws).
   */
  datatype AiReply = Unanswered | Answered(parsed: Option<seq<Crop>>)

  /** The service, asked about a place and its monthly climate. */
  type Advisor = (string, ClimateSummary) -> AiReply

  /** `{place, date, climateData, crops}`. */
  datatype CropReport = CropReport(place: string, date: string, climate: ClimateSummary, crops: seq<Crop>)

  /** Step 5 of `predictCrops`: the parsed crops, or the fallback list. */
  function ParseCrops(text: Option<seq<Crop>>): (crops: seq<Crop>)
    ensures text.Some? ==> crops == text.value
    ensures text.None? ==> crops == FallbackCrops
  {
    match text
    case Some(parsed) => parsed
    case None => FallbackCrops
  }

  /**
    `predictCrops`. `aiKey` and `locationKey` say whether the two service
    keys are configured, `place` is the query text (empty when absent),
    `today` the server's date.
   */
  function PredictCrops(aiKey: bool, place: string, locationKey: bool, geocode: Geocoder,
                        today: Date, fetch: DailyProvider, advise: Advisor): (r: Reply<CropReport>)
    requires Valid(today) && 1 <= today.year <= 9999
    ensures !aiKey ==> r == Status(ServerError, AiKeyMissing)
    ensures aiKey && place == "" ==> r == Status(BadRequest, MissingParameters)
    ensures aiKey && place != "" ==>
      match GetCoordinates(locationKey, place, geocode)
      case Err(f) => r == Status(ServerError, Caught(f))
      case Ok(c) => r == FetchAndAdvise(place, c, today, fetch, advise)
  {
    if !aiKey then Status(ServerError, AiKeyMissing)
    else if place == "" then Status(BadRequest, MissingParameters)
    else
      match GetCoordinates(locationKey, place, geocode)
      case Err(f) => Status(ServerError, Caught(f))
      case Ok(c) => FetchAndAdvise(place, c, today, fetch, advise)
  }

  /** The provider is asked for the previous month at the geocoded position. */
  function FetchAndAdvise(place: string, c: Coords, today: Date, fetch: DailyProvider, advise: Advisor)
    : (r: Reply<CropReport>)
    requires Valid(today) && 1 <= today.year <= 9999
    ensures var w := PreviousMonth(today);
      match fetch(c, CompactDate(w.start), CompactDate(w.end))
      case None => r == Status(ServerError, Caught(UpstreamFailed))
      case Some(resp) => r == Advise(place, today, resp, advise)
  {
    var (start, end) := MonthParams(today);
    match fetch(c, start, end)
    case None => Status(ServerError, Caught(UpstreamFailed))
    case Some(resp) => Advise(place, today, resp, advise)
  }

  /** The part of `predictCrops` after the climate provider has answered. */
  function Advise(place: string, today: Date, resp: DailyResponse, advise: Advisor): (r: Reply<CropReport>)
    requires Valid(today) && 0 <= today.year <= 9999
    ensures r.Reply? <==>
      && resp.parameter.Some?
      && MonthlyClimate(resp.parameter.value).Ok?
      && advise(place, MonthlyClimate(resp.parameter.value).value).Answered?
    ensures r.Reply? ==>
      var climate := MonthlyClimate(resp.parameter.value).value;
      && r.body.place == place
      && r.body.date == IsoDate(today)
      && r.body.climate == climate
      && r.body.crops == ParseCrops(advise(place, climate).parsed)
    ensures r.Status? ==> r.code == ServerError
    ensures resp.parameter.None? ==> r == Status(ServerError, Caught(MalformedResponse))
  {
    if resp.parameter.None? then Status(ServerError, Caught(MalformedResponse))
    else
      match MonthlyClimate(resp.parameter.value)
      case Err(f) => Status(ServerError, Caught(f))
      case Ok(climate) =>
        match advise(place, climate)
        case Unanswered => Status(ServerError, Caught(AiFailed))
        case Answered(parsed) => Reply(CropReport(place, IsoDate(today), climate, ParseCrops(parsed)))
  }

  /** The service key is checked before the query, the geocoder or the provider. */
  lemma AiKeyCheckedFirst(place: string, locationKey: bool, geocode: Geocoder, today: Date,
                          fetch: DailyProvider, advise: Advisor)
    requires Valid(today) && 1 <= today.year <= 9999
    ensures PredictCrops(false, place, locationKey, geocode, today, fetch, advise).Status?
    ensures PredictCrops(false, place, locationKey, geocode, today, fetch, advise).code == ServerError
  {
  }
}

=== FILE: date_text.dfy ===
/**
  The text forms of dates used on the wire: the provider's compact `YYYYMMDD`
  and hourly `YYYYMMDDHH` keys, the `YYYY-MM-DD` output form, the
  `YYYY-MM-DD HH:00` hourly timestamp, and decimal numerals.
 */
module DateText {
  import opened Calendar

  predicate IsDigit(c: char)
  {
    '0' <= c <= '9'
  }

  predicate AllDigits(s: string)
  {
    forall i :: 0 <= i < |s| ==> IsDigit(s[i])
  }

  function DigitChar(n: int): (c: char)
    requires 0 <= n < 10
    ensures IsDigit(c)
  {
    (('0' as int) + n) as char
  }

  function DigitValue(c: char): int
  {
    (c as int) - ('0' as int)
  }

  /** The decimal numeral of `n`, without leading zeros (`n.toString()`). */
  function NatToString(n: nat): (s: string)
    ensures |s| >= 1 && AllDigits(s)
  {
    if n < 10 then [DigitChar(n)] else NatToString(n / 10) + [DigitChar(n % 10)]
  }

  /** The value of a string of decimal digits (leading zeros allowed). */
  function ParseDecimal(s: string): nat
  {
    if |s| == 0 then 0
    else
      var d := DigitValue(s[|s| - 1]);
      ParseDecimal(s[..|s| - 1]) * 10 + (if 0 <= d then d else 0)
  }

  /** `s` zero-filled on the left to at least `width` characters. */
  function PadStart(s: string, width: nat): (r: string)
    ensures |r| == if |s| < width then width else |s|
  {
    if |s| < width then Zeros(width - |s|) + s else s
  }

  function Zeros(k: nat): (z: string)
    ensures |z| == k
  {
    seq(k, _ => '0')
  }

  /** `n` written with exactly `width` digits, zero-filled on the left. */
  function Digits(n: nat, width: nat): (s: string)
    requires n < Pow10(width)
    ensures |s| == width && AllDigits(s)
    ensures ParseDecimal(s) == n
  {
    if width == 0 then []
    else
      var prefix := Digits(n / 10, width - 1);
      assert (prefix + [DigitChar(n % 10)])[..width - 1] == prefix;
      prefix + [DigitChar(n % 10)]
  }

  function Pow10(k: nat): (p: nat)
    ensures p >= 1
  {
    if k == 0 then 1 else 10 * Pow10(k - 1)
  }

  /** The characters of `s` from position `i` up to `j`, with bounds past the end clipped. */
  function Substring(s: string, i: nat, j: nat): (r: string)
    requires i <= j
    ensures |s| >= j ==> r == s[i..j]
    ensures |r| <= j - i
  {
    if |s| <= i then [] else if |s| <= j then s[i..] else s[i..j]
  }

  /** `s` with every hyphen removed and the other characters kept in order. */
  function StripHyphens(s: string): (r: string)
    ensures '-' !in r
    ensures |r| <= |s|
    ensures '-' !in s ==> r == s
  {
    if |s| == 0 then []
    else (if s[0] == '-' then [] else [s[0]]) + StripHyphens(s[1..])
  }

  /** Exactly the hyphens are removed: the length drops by their number. */
  lemma {:induction false} StripHyphensLength(s: string)
    ensures |StripHyphens(s)| == |s| - multiset(s)['-']
  {
    if |s| > 0 {
      assert s == [s[0]] + s[1..];
      StripHyphensLength(s[1..]);
    }
  }

  /** `YYYY-MM-DD`, the form `toISOString().slice(0, 10)` gives. */
  function IsoDate(d: Date): string
    requires Valid(d) && 0 <= d.year <= 9999
  {
    Digits(d.year, 4) + "-" + Digits(d.month, 2) + "-" + Digits(d.day, 2)
  }

  /** `YYYYMMDD`, the provider's date form. */
  function CompactDate(d: Date): string
    requires Valid(d) && 0 <= d.year <= 9999
  {
    Digits(d.year, 4) + Digits(d.month, 2) + Digits(d.day, 2)
  }

  /** A daily key made readable: its first four, next two and next two characters joined by hyphens. */
  function ExpandDate(s: string): (r: string)
    ensures |s| >= 8 ==> |r| == 10 && r[4] == '-' && r[7] == '-'
  {
    Substring(s, 0, 4) + "-" + Substring(s, 4, 6) + "-" + Substring(s, 6, 8)
  }

  /** `formatTimestamp`: an hourly key `YYYYMMDDHH` as `YYYY-MM-DD HH:00`. */
  function FormatTimestamp(ts: string): (r: string)
    ensures |ts| >= 10 ==> |r| == 16 && r[..10] == ExpandDate(ts) && r[10] == ' '
    ensures |ts| >= 10 ==> r[11..13] == ts[8..10] && r[13..] == ":00"
  {
    ExpandDate(ts) + " " + Substring(ts, 8, 10) + ":00"
  }

  /** The text before the first space (all of `s` when it has none). */
  function BeforeSpace(s: string): (r: string)
    ensures |r| <= |s| && r == s[..|r|]
    ensures ' ' !in r
    ensures |r| < |s| ==> s[|r|] == ' '
  {
    if |s| == 0 || s[0] == ' ' then [] else [s[0]] + BeforeSpace(s[1..])
  }

  lemma {:induction false} StripHyphensAppend(a: string, b: string)
    ensures StripHyphens(a + b) == StripHyphens(a) + StripHyphens(b)
  {
    if |a| > 0 {
      var head: string := if a[0] == '-' then [] else [a[0]];
      assert (a + b)[0] == a[0] && (a + b)[1..] == a[1..] + b;
      assert StripHyphens(a + b) == head + StripHyphens(a[1..] + b);
      StripHyphensAppend(a[1..], b);
      assert StripHyphens(a) == head + StripHyphens(a[1..]);
    } else {
      assert a + b == b;
    }
  }

  lemma DigitsHaveNoHyphen(s: string)
    requires AllDigits(s)
    ensures StripHyphens(s) == s
  {
    assert forall i :: 0 <= i < |s| ==> s[i] != '-' by {
      forall i | 0 <= i < |s| ensures s[i] != '-' {
        assert IsDigit(s[i]);
      }
    }
  }

  /** Three digit groups joined by hyphens lose exactly the two hyphens. */
  lemma StripJoined(a: string, b: string, c: string)
    requires AllDigits(a) && AllDigits(b) && AllDigits(c)
    ensures StripHyphens(a + "-" + b + "-" + c) == a + b + c
  {
    var h: string := "-";
    assert StripHyphens(h) == [];
    DigitsHaveNoHyphen(a);
    DigitsHaveNoHyphen(b);
    DigitsHaveNoHyphen(c);
    StripHyphensAppend(a, h);
    assert StripHyphens(a + h) == a;
    StripHyphensAppend(a + h, b);
    assert StripHyphens(a + h + b) == a + b;
    StripHyphensAppend(a + h + b, h);
    assert StripHyphens(a + h + b + h) == a + b;
    StripHyphensAppend(a + h + b + h, c);
  }

  /** Dropping the hyphens of the output form gives the provider's form. */
  lemma IsoToCompact(d: Date)
    requires Valid(d) && 0 <= d.year <= 9999
    ensures StripHyphens(IsoDate(d)) == CompactDate(d)
  {
    StripJoined(Digits(d.year, 4), Digits(d.month, 2), Digits(d.day, 2));
  }

  /** The provider's form of a date is eight decimal digits. */
  lemma CompactDateShape(d: Date)
    requires Valid(d) && 0 <= d.year <= 9999
    ensures |CompactDate(d)| == 8 && AllDigits(CompactDate(d))
  {
    var y, m, dd := Digits(d.year, 4), Digits(d.month, 2), Digits(d.day, 2);
    AllDigitsAppend(y, m);
    AllDigitsAppend(y + m, dd);
  }

  lemma AllDigitsAppend(a: string, b: string)
    requires AllDigits(a) && AllDigits(b)
    ensures AllDigits(a + b)
  {
    assert forall i :: 0 <= i < |a| ==> (a + b)[i] == a[i];
    assert forall i :: |a| <= i < |a + b| ==> (a + b)[i] == b[i - |a|];
  }

  /** Expanding the provider's form gives the output form. */
  lemma CompactToIso(d: Date)
    requires Valid(d) && 0 <= d.year <= 9999
    ensures ExpandDate(CompactDate(d)) == IsoDate(d)
  {
    var c := CompactDate(d);
    assert c[0..4] == Digits(d.year, 4);
    assert c[4..6] == Digits(d.month, 2);
    assert c[6..8] == Digits(d.day, 2);
  }

  /** Expanding then dropping hyphens restores an 8-digit key. */
  lemma ExpandThenStrip(s: string)
    requires |s| == 8 && AllDigits(s)
    ensures StripHyphens(ExpandDate(s)) == s
  {
    var a, b, c := s[0..4], s[4..6], s[6..8];
    assert ExpandDate(s) == a + "-" + b + "-" + c;
    StripJoined(a, b, c);
    assert a + b + c == s;
  }

  /** The date part of an hourly timestamp is the expanded day of its key. */
  lemma {:induction false} TimestampDate(ts: string)
    requires |ts| == 10 && AllDigits(ts)
    ensures BeforeSpace(FormatTimestamp(ts)) == ExpandDate(ts)
    ensures StripHyphens(BeforeSpace(FormatTimestamp(ts))) == ts[..8]
  {
    var r := FormatTimestamp(ts);
    var e := ExpandDate(ts);
    assert forall i :: 0 <= i < 10 ==> e[i] != ' ' by {
      assert e == ts[0..4] + "-" + ts[4..6] + "-" + ts[6..8];
    }
    NoSpaceThenSpace(r, 10);
    var k := ts[..8];
    assert k[0..4] == ts[0..4] && k[4..6] == ts[4..6] && k[6..8] == ts[6..8];
    assert ExpandDate(k) == e;
    ExpandThenStrip(k);
  }

  /** `BeforeSpace` stops at the first space. */
  lemma {:induction false} NoSpaceThenSpace(s: string, k: nat)
    requires k < |s| && s[k] == ' '
    requires forall i :: 0 <= i < k ==> s[i] != ' '
    ensures BeforeSpace(s) == s[..k]
  {
    if k > 0 {
      NoSpaceThenSpace(s[1..], k - 1);
    }
  }

  /** One digit below 10, two digits from 10 to 99. */
  lemma NatToStringLength(n: nat)
    ensures n < 10 <==> |NatToString(n)| == 1
    ensures 10 <= n < 100 <==> |NatToString(n)| == 2
  {
    if n >= 10 {
      assert |NatToString(n)| == |NatToString(n / 10)| + 1;
      if n >= 100 {
        assert n / 10 >= 10;
      }
    }
  }

  lemma {:induction false} ParseDecimalOfString(n: nat)
    ensures ParseDecimal(NatToString(n)) == n
  {
    if n >= 10 {
      var s := NatToString(n);
      assert s[..|s| - 1] == NatToString(n / 10);
      ParseDecimalOfString(n / 10);
    }
  }

  lemma {:induction false} ParseDecimalLeadingZero(s: string)
    ensures ParseDecimal(['0'] + s) == ParseDecimal(s)
  {
    if |s| > 0 {
      var t := ['0'] + s;
      assert t[..|t| - 1] == ['0'] + s[..|s| - 1];
      ParseDecimalLeadingZero(s[..|s| - 1]);
    } else {
      assert (['0'] + s)[..0] == [];
    }
  }

  /** Zero padding does not change the value a numeral denotes. */
  lemma ParseDecimalPadded(s: string, width: nat)
    ensures ParseDecimal(PadStart(s, width)) == ParseDecimal(s)
  {
    if |s| < width {
      ParseDecimalZeros(s, width - |s|);
    }
  }

  lemma {:induction false} ParseDecimalZeros(s: string, k: nat)
    ensures ParseDecimal(Zeros(k) + s) == ParseDecimal(s)
  {
    if k > 0 {
      assert Zeros(k) + s == ['0'] + (Zeros(k - 1) + s);
      ParseDecimalLeadingZero(Zeros(k - 1) + s);
      ParseDecimalZeros(s, k - 1);
    } else {
      assert Zeros(k) + s == s;
    }
  }
}

=== FILE: geocoding.dfy ===
/**
  `getCoordinates`: place name to latitude and longitude through the
  geocoding provider. The two controllers that resolve places carry
  identical copies of this routine; the model has one.
 */
module Geocoding {
  import opened Base

  datatype Coords = Coords(lat: real, lon: real)

  /**
    What the geocoder's search endpoint answers for a query: the list of
    matches, or `None` when the request itself failed.
   */
  type Geocoder = string -> Option<seq<Coords>>

  function GetCoordinates(keyConfigured: bool, place: string, geocode: Geocoder): (r: Result<Coords>)
    ensures !keyConfigured ==> r == Err(LocationKeyMissing)
    ensures r.Ok? <==> keyConfigured && geocode(place).Some? && |geocode(place).value| > 0
    ensures r.Ok? ==> r.value == geocode(place).value[0]
    ensures keyConfigured && geocode(place) == Some([]) ==> r == Err(PlaceNotFound)
    ensures keyConfigured && geocode(place).None? ==> r == Err(UpstreamFailed)
  {
    if !keyConfigured then Err(LocationKeyMissing)
    else
      match geocode(place)
      case None => Err(UpstreamFailed)
      case Some(matches) =>
        if |matches| > 0 then Ok(matches[0]) else Err(PlaceNotFound)
  }

  /** The key is checked before the provider is asked anything. */
  lemma KeyCheckedFirst(place: string, g1: Geocoder, g2: Geocoder)
    ensures GetCoordinates(false, place, g1) == GetCoordinates(false, place, g2)
  {
  }
}

=== FILE: hourly_rollup.dfy ===
/**
  `processWeatherData`: the hourly provider response reduced to a summary.
  Hours whose temperature is missing are dropped; rainfall is accumulated
  per calendar day from strictly positive readings; temperature and solar
  statistics are taken over the retained hours; the first 24 retained hours
  are kept as previews.
 */
module HourlyRollup {
  import opened Base
  import opened Js
  import opened DateText
  import opened Rounding
  import Stats

  /** One retained hour: `{timestamp, temperature, solar_radiation, rainfall}`. */
  datatype Hour = Hour(timestamp: string, temperature: real, solar: JsValue, rain: JsValue)

  /** The hourly provider response: `properties.parameter`, `geometry.coordinates`, `header`. */
  datatype HourlyResponse = HourlyResponse(
    parameter: Option<Params>,
    coordinates: seq<real>,
    headerStart: string,
    headerEnd: string)

  datatype Location = Location(latitude: JsValue, longitude: JsValue, elevation: JsValue)

  /** `{daily_average, daily_min, daily_max}`; `None` is JSON `null`. */
  datatype TemperatureStats = TemperatureStats(average: Option<real>, min: Option<real>, max: Option<real>)

  datatype WeatherReport = WeatherReport(
    location: Location,
    requested: string,
    actual: string,
    daysCovered: real,
    summaryTemperature: TemperatureStats,
    summaryRainfallTotal: real,
    rainyDays: nat,
    summarySolarAverage: Option<JsNum>,
    temperature: TemperatureStats,
    temperatureHourly: seq<(string, real)>,
    rainfallTotal: real,
    dailyRain: seq<(string, real)>,
    solarAverage: Option<JsNum>,
    solarHourly: seq<(string, JsValue)>)

  const PreviewLength: nat := 24

  /** The hourly keys that are processed: ten characters, numeric. */
  predicate IsHourKey(ts: string)
  {
    |ts| == 10 && AllDigits(ts)
  }

  /** A usable temperature: a number other than the -999 "no reading" code. */
  predicate IsReading(v: JsValue)
  {
    v.Num? && v.n != Sentinel
  }

  /** The calendar day an hour belongs to: the date part of its formatted timestamp. */
  function Day(h: Hour): string
  {
    BeforeSpace(h.timestamp)
  }

  function MakeHour(key: string, temperature: real, rain: Series, solar: Series): Hour
  {
    Hour(FormatTimestamp(key), temperature, Read(solar, key), Read(rain, key))
  }

  /** The temperature entries that are kept, in order, as hours. */
  function Retain(temp: Series, rain: Series, solar: Series): (hours: seq<Hour>)
    ensures |hours| <= |temp|
    ensures forall h :: h in hours ==> h.temperature != Sentinel
  {
    if |temp| == 0 then []
    else
      var (key, v) := temp[0];
      (if IsHourKey(key) && IsReading(v) then [MakeHour(key, v.n, rain, solar)] else [])
      + Retain(temp[1..], rain, solar)
  }

  /** Filtering distributes over concatenation: retained hours keep input order. */
  lemma {:induction false} RetainAppend(a: Series, b: Series, rain: Series, solar: Series)
    ensures Retain(a + b, rain, solar) == Retain(a, rain, solar) + Retain(b, rain, solar)
  {
    if |a| > 0 {
      assert (a + b)[1..] == a[1..] + b;
      RetainAppend(a[1..], b, rain, solar);
    } else {
      assert a + b == b;
    }
  }

  /** An hour is retained exactly when some entry with a valid key carries a temperature reading. */
  lemma {:induction false} RetainMembers(temp: Series, rain: Series, solar: Series, h: Hour)
    ensures h in Retain(temp, rain, solar) <==>
      exists i :: 0 <= i < |temp| && IsHourKey(temp[i].0) && IsReading(temp[i].1)
                  && h == MakeHour(temp[i].0, temp[i].1.n, rain, solar)
  {
    if |temp| > 0 {
      RetainMembers(temp[1..], rain, solar, h);
      var tail := temp[1..];
      assert forall i :: 0 <= i < |tail| ==> tail[i] == temp[i + 1];
      if h in Retain(tail, rain, solar) {
        var i :| 0 <= i < |tail| && IsHourKey(tail[i].0) && IsReading(tail[i].1)
                 && h == MakeHour(tail[i].0, tail[i].1.n, rain, solar);
        assert temp[i + 1] == tail[i];
      }
    }
  }

  /** The number of keys that pass the key filter; the handler only logs it and tests it for zero. */
  function HourKeyCount(temp: Series): (n: nat)
    ensures n <= |temp|
    ensures n == 0 <==> forall i :: 0 <= i < |temp| ==> !IsHourKey(temp[i].0)
  {
    if |temp| == 0 then 0
    else (if IsHourKey(temp[0].0) then 1 else 0) + HourKeyCount(temp[1..])
  }

  // ---------------------------------------------------------------------------
  // Daily rainfall

  /** A rain reading that is added to its day's total: `rain > 0`. */
  predicate RainsOn(h: Hour, d: string)
  {
    Day(h) == d && h.rain.Num? && h.rain.n > 0.0
  }

  /** Reference definition: the rain that fell on day `d` over `hours`. */
  function RainTotal(hours: seq<Hour>, d: string): real
  {
    if |hours| == 0 then 0.0
    else
      var h := hours[|hours| - 1];
      RainTotal(hours[..|hours| - 1], d) + (if RainsOn(h, d) then h.rain.n else 0.0)
  }

  predicate HasRain(hours: seq<Hour>, d: string)
  {
    exists i :: 0 <= i < |hours| && RainsOn(hours[i], d)
  }

  function DaysOf(acc: seq<(string, real)>): (ds: seq<string>)
    ensures |ds| == |acc|
    ensures forall i :: 0 <= i < |acc| ==> ds[i] == acc[i].0
  {
    seq(|acc|, i requires 0 <= i < |acc| => acc[i].0)
  }

  predicate Distinct(ds: seq<string>)
  {
    forall i, j :: 0 <= i < j < |ds| ==> ds[i] != ds[j]
  }

  /** The running rainfall total of day `d`, 0 when the day has none yet. */
  function TotalOn(acc: seq<(string, real)>, d: string): real
  {
    if |acc| == 0 then 0.0 else if acc[0].0 == d then acc[0].1 else TotalOn(acc[1..], d)
  }

  /** Adds `amount` to the total of day `d`; a day seen for the first time goes last. */
  function AddRain(acc: seq<(string, real)>, d: string, amount: real): seq<(string, real)>
  {
    if |acc| == 0 then [(d, amount)]
    else if acc[0].0 == d then [(d, acc[0].1 + amount)] + acc[1..]
    else [acc[0]] + AddRain(acc[1..], d, amount)
  }

  lemma DaysOfCons(x: (string, real), rest: seq<(string, real)>)
    ensures DaysOf([x] + rest) == [x.0] + DaysOf(rest)
  {
  }

  lemma DistinctCons(x: string, ds: seq<string>)
    ensures Distinct([x] + ds) <==> x !in ds && Distinct(ds)
  {
    var xs := [x] + ds;
    assert forall i :: 0 <= i < |ds| ==> xs[i + 1] == ds[i];
    if x in ds {
      var k :| 0 <= k < |ds| && ds[k] == x;
      assert xs[0] == xs[k + 1];
    }
  }

  /** Adding rain keeps one entry per day and appends a day seen for the first time. */
  lemma {:induction false} AddRainDays(acc: seq<(string, real)>, d: string, amount: real)
    requires Distinct(DaysOf(acc))
    ensures Distinct(DaysOf(AddRain(acc, d, amount)))
    ensures DaysOf(AddRain(acc, d, amount)) == if d in DaysOf(acc) then DaysOf(acc) else DaysOf(acc) + [d]
  {
    var r := AddRain(acc, d, amount);
    if |acc| == 0 {
      assert DaysOf(r) == [d];
    } else {
      var tail := acc[1..];
      assert acc == [acc[0]] + tail;
      DaysOfCons(acc[0], tail);
      DistinctCons(acc[0].0, DaysOf(tail));
      if acc[0].0 == d {
        DaysOfCons((d, acc[0].1 + amount), tail);
      } else {
        var rest := AddRain(tail, d, amount);
        AddRainDays(tail, d, amount);
        DaysOfCons(acc[0], rest);
        DistinctCons(acc[0].0, DaysOf(rest));
        if d !in DaysOf(acc) {
          assert DaysOf(r) == [acc[0].0] + (DaysOf(tail) + [d]);
        }
      }
    }
  }

  /** Adding rain to a day raises that day's total and no other. */
  lemma {:induction false} AddRainTotals(acc: seq<(string, real)>, d: string, amount: real, e: string)
    ensures TotalOn(AddRain(acc, d, amount), e) == TotalOn(acc, e) + (if e == d then amount else 0.0)
  {
    if |acc| > 0 && acc[0].0 != d {
      AddRainTotals(acc[1..], d, amount, e);
    } else if |acc| > 0 {
      assert AddRain(acc, d, amount)[1..] == acc[1..];
    }
  }

  /** `dailyRainfall` after the loop: one entry per day with rain, each day once, with its total. */
  function DailyRainfall(hours: seq<Hour>): (acc: seq<(string, real)>)
    ensures Distinct(DaysOf(acc))
    ensures forall d :: TotalOn(acc, d) == RainTotal(hours, d)
    ensures forall d :: d in DaysOf(acc) <==> HasRain(hours, d)
  {
    if |hours| == 0 then []
    else
      var prefix := hours[..|hours| - 1];
      var h := hours[|hours| - 1];
      var prev := DailyRainfall(prefix);
      assert forall d :: HasRain(hours, d) <==> HasRain(prefix, d) || RainsOn(h, d) by {
        assert forall i :: 0 <= i < |prefix| ==> prefix[i] == hours[i];
      }
      if h.rain.Num? && h.rain.n > 0.0 then
        AddRainDays(prev, Day(h), h.rain.n);
        forall e ensures TotalOn(AddRain(prev, Day(h), h.rain.n), e) == RainTotal(hours, e) {
          AddRainTotals(prev, Day(h), h.rain.n, e);
        }
        AddRain(prev, Day(h), h.rain.n)
      else prev
  }

  /** `dailyRainfallArray`: each day's total rounded to two decimals. */
  function RainfallByDay(hours: seq<Hour>): (days: seq<(string, real)>)
    ensures Distinct(DaysOf(days))
    ensures forall i :: 0 <= i < |days| ==> days[i].1 == Round2(RainTotal(hours, days[i].0))
    ensures forall d :: d in DaysOf(days) <==> HasRain(hours, d)
  {
    var acc := DailyRainfall(hours);
    var days := seq(|acc|, i requires 0 <= i < |acc| => (acc[i].0, Round2(acc[i].1)));
    assert DaysOf(days) == DaysOf(acc);
    forall i | 0 <= i < |acc| ensures acc[i].1 == TotalOn(acc, acc[i].0) {
      FirstMatch(acc, i);
    }
    days
  }

  /** With distinct days, looking a day up finds its own entry. */
  lemma {:induction false} FirstMatch(acc: seq<(string, real)>, i: nat)
    requires Distinct(DaysOf(acc)) && i < |acc|
    ensures TotalOn(acc, acc[i].0) == acc[i].1
  {
    if i > 0 {
      assert DaysOf(acc)[0] != DaysOf(acc)[i];
      assert forall j :: 0 <= j < |acc| - 1 ==> DaysOf(acc[1..])[j] == DaysOf(acc)[j + 1];
      FirstMatch(acc[1..], i - 1);
    }
  }

  /** Only positive readings are summed, so no day's total and no overall total is negative. */
  lemma RainfallTotalNonNegative(hours: seq<Hour>)
    ensures forall i :: 0 <= i < |RainfallByDay(hours)| ==> RainfallByDay(hours)[i].1 >= 0.0
    ensures Round2(SumRounded(RainfallByDay(hours))) >= 0.0
  {
    var days := RainfallByDay(hours);
    forall i | 0 <= i < |days| ensures days[i].1 >= 0.0 {
      RainTotalNonNegative(hours, days[i].0);
    }
    SumRoundedNonNegative(days);
  }

  lemma {:induction false} RainTotalNonNegative(hours: seq<Hour>, d: string)
    ensures RainTotal(hours, d) >= 0.0
  {
    if |hours| > 0 {
      RainTotalNonNegative(hours[..|hours| - 1], d);
    }
  }

  lemma {:induction false} SumRoundedNonNegative(days: seq<(string, real)>)
    requires forall i :: 0 <= i < |days| ==> days[i].1 >= 0.0
    ensures SumRounded(days) >= 0.0
  {
    if |days| > 0 {
      var prefix := days[..|days| - 1];
      assert forall i :: 0 <= i < |prefix| ==> prefix[i] == days[i];
      SumRoundedNonNegative(prefix);
    }
  }

  /** Only days of retained hours can be rainy days, so `rainy_days` is at most their number. */
  lemma RainyDaysBound(hours: seq<Hour>)
    ensures |RainfallByDay(hours)| <= |set h | h in hours :: Day(h)|
  {
    var days := RainfallByDay(hours);
    var ds := DaysOf(days);
    var all := set h | h in hours :: Day(h);
    var rainy := set d | d in ds;
    assert rainy <= all by {
      forall d | d in ds ensures d in all {
        assert HasRain(hours, d);
        var i :| 0 <= i < |hours| && RainsOn(hours[i], d);
        assert hours[i] in hours;
      }
    }
    DistinctCardinality(ds);
    SubsetCardinality(rainy, all);
  }

  lemma {:induction false} DistinctCardinality(ds: seq<string>)
    requires Distinct(ds)
    ensures |set d | d in ds| == |ds|
  {
    if |ds| > 0 {
      var tail := ds[1..];
      assert Distinct(tail) by {
        assert forall i :: 0 <= i < |tail| ==> tail[i] == ds[i + 1];
      }
      DistinctCardinality(tail);
      assert (set d | d in ds) == (set d | d in tail) + {ds[0]};
      assert ds[0] !in tail by {
        assert forall i :: 0 <= i < |tail| ==> tail[i] == ds[i + 1];
      }
    }
  }

  lemma {:induction false} SubsetCardinality(a: set<string>, b: set<string>)
    requires a <= b
    ensures |a| <= |b|
    decreases |b|
  {
    if a != {} {
      var x :| x in a;
      SubsetCardinality(a - {x}, b - {x});
    }
  }

  // ---------------------------------------------------------------------------
  // Statistics

  function Temperatures(hours: seq<Hour>): (ts: seq<real>)
    ensures |ts| == |hours|
    ensures forall i :: 0 <= i < |hours| ==> ts[i] == hours[i].temperature
  {
    seq(|hours|, i requires 0 <= i < |hours| => hours[i].temperature)
  }

  function SolarValues(hours: seq<Hour>): (vs: seq<JsValue>)
    ensures |vs| == |hours|
    ensures forall i :: 0 <= i < |hours| ==> vs[i] == hours[i].solar
  {
    seq(|hours|, i requires 0 <= i < |hours| => hours[i].solar)
  }

  /** `tempStats`: `null` fields without hours, rounded mean, min and max otherwise. */
  function TemperatureSummary(hours: seq<Hour>): (s: TemperatureStats)
    ensures |hours| == 0 <==> s == TemperatureStats(None, None, None)
    ensures |hours| > 0 ==> s.average.Some? && s.min.Some? && s.max.Some?
    ensures |hours| > 0 ==> s.min.value <= s.average.value <= s.max.value
    ensures |hours| > 0 ==> s.average.value == Round2(Stats.Mean(Temperatures(hours)))
    ensures |hours| > 0 ==> s.min.value == Round2(Stats.Min(Temperatures(hours)))
    ensures |hours| > 0 ==> s.max.value == Round2(Stats.Max(Temperatures(hours)))
  {
    if |hours| == 0 then TemperatureStats(None, None, None)
    else
      var ts := Temperatures(hours);
      Stats.MeanBetween(ts);
      Round2Monotone(Stats.Min(ts), Stats.Mean(ts));
      Round2Monotone(Stats.Mean(ts), Stats.Max(ts));
      TemperatureStats(Some(Round2(Stats.Mean(ts))), Some(Round2(Stats.Min(ts))), Some(Round2(Stats.Max(ts))))
  }

  /** Two-decimal rounding of a JavaScript number; `NaN` stays `NaN`. */
  function RoundNum(x: JsNum): JsNum
  {
    if x.Fin? then Fin(Round2(x.x)) else x
  }

  /** `solarStats.daily_average`: the mean of every retained hour's solar reading. */
  function SolarAverage(hours: seq<Hour>): (a: Option<JsNum>)
    ensures |hours| == 0 <==> a.None?
    ensures |hours| > 0 && (forall i :: 0 <= i < |hours| ==> !hours[i].solar.Undefined?) ==>
      a == Some(Fin(Round2(NumberSum(SolarValues(hours)) / |hours| as real)))
    ensures (exists i :: 0 <= i < |hours| && hours[i].solar.Undefined?) ==> a == Some(NaN)
  {
    if |hours| == 0 then None
    else Some(RoundNum(Divide(SumValues(SolarValues(hours)), |hours|)))
  }

  /** The first 24 elements, or all of them when there are fewer. */
  function Preview<T>(xs: seq<T>): (p: seq<T>)
    ensures |p| == if |xs| < PreviewLength then |xs| else PreviewLength
    ensures p == xs[..|p|]
  {
    if |xs| < PreviewLength then xs else xs[..PreviewLength]
  }

  function SumRounded(days: seq<(string, real)>): real
  {
    if |days| == 0 then 0.0 else SumRounded(days[..|days| - 1]) + days[|days| - 1].1
  }

  /** `geometry.coordinates[i]`. */
  function Coordinate(cs: seq<real>, i: nat): JsValue
  {
    if i < |cs| then Num(cs[i]) else Undefined
  }

  // ---------------------------------------------------------------------------
  // The roll-up

  /** The retained hours of a response whose series are all present. */
  function Hours(resp: HourlyResponse): seq<Hour>
  {
    var params := Parameters(resp);
    Retain(SeriesOf(params, "T2M"), SeriesOf(params, "PRECTOTCORR"), SeriesOf(params, "ALLSKY_SFC_SW_DWN"))
  }

  /** The `parameter` object, empty when absent (only read once its presence is checked). */
  function Parameters(resp: HourlyResponse): Params
  {
    match resp.parameter
    case Some(p) => p
    case None => []
  }

  function SeriesOf(params: Params, name: string): Series
  {
    match Lookup(params, name)
    case Some(s) => s
    case None => []
  }

  /** `processWeatherData`, or the `TypeError` it throws on a missing `parameter` object or series. */
  function ProcessWeatherData(resp: HourlyResponse, requestedStart: string, requestedEnd: string)
    : (r: Result<WeatherReport>)
    ensures r.Err? <==>
      resp.parameter.None?
      || Lookup(resp.parameter.value, "T2M").None?
      || (HourKeyCount(SeriesOf(resp.parameter.value, "T2M")) > 0
          && (Lookup(resp.parameter.value, "PRECTOTCORR").None?
              || Lookup(resp.parameter.value, "ALLSKY_SFC_SW_DWN").None?))
    ensures r.Err? ==> r.fault == MalformedResponse
    ensures r.Ok? ==> r.value == Summarize(Hours(resp), resp, requestedStart, requestedEnd)
  {
    match resp.parameter
    case None => Err(MalformedResponse)
    case Some(params) =>
      match Lookup(params, "T2M")
      case None => Err(MalformedResponse)
      case Some(temp) =>
        var rain, solar := Lookup(params, "PRECTOTCORR"), Lookup(params, "ALLSKY_SFC_SW_DWN");
        if HourKeyCount(temp) > 0 && (rain.None? || solar.None?) then Err(MalformedResponse)
        else Ok(Summarize(Hours(resp), resp, requestedStart, requestedEnd))
  }

  /** The response object built from the retained hours. */
  function Summarize(hours: seq<Hour>, resp: HourlyResponse, requestedStart: string, requestedEnd: string)
    : (w: WeatherReport)
    ensures w.location == Location(Coordinate(resp.coordinates, 1), Coordinate(resp.coordinates, 0),
                                   Coordinate(resp.coordinates, 2))
    ensures w.requested == requestedStart + " to " + requestedEnd
    ensures w.actual == resp.headerStart + " to " + resp.headerEnd
    ensures w.daysCovered == |hours| as real / 24.0
    ensures w.summaryTemperature == w.temperature == TemperatureSummary(hours)
    ensures w.summaryRainfallTotal == w.rainfallTotal == Round2(SumRounded(w.dailyRain))
    ensures w.summarySolarAverage == w.solarAverage == SolarAverage(hours)
    ensures w.dailyRain == RainfallByDay(hours) && w.rainyDays == |w.dailyRain|
    ensures |w.temperatureHourly| == |w.solarHourly| == (if |hours| < 24 then |hours| else 24)
    ensures forall i :: 0 <= i < |w.temperatureHourly| ==>
              w.temperatureHourly[i] == (hours[i].timestamp, hours[i].temperature)
    ensures forall i :: 0 <= i < |w.solarHourly| ==> w.solarHourly[i] == (hours[i].timestamp, hours[i].solar)
  {
    var daily := RainfallByDay(hours);
    var total := Round2(SumRounded(daily));
    var tempStats := TemperatureSummary(hours);
    var solarAverage := SolarAverage(hours);
    var tempPreview := Preview(TemperatureSamples(hours));
    var solarPreview := Preview(SolarSamples(hours));
    WeatherReport(
      Location(Coordinate(resp.coordinates, 1), Coordinate(resp.coordinates, 0), Coordinate(resp.coordinates, 2)),
      requestedStart + " to " + requestedEnd,
      resp.headerStart + " to " + resp.headerEnd,
      |hours| as real / 24.0,
      tempStats, total, |daily|, solarAverage,
      tempStats, tempPreview,
      total, daily,
      solarAverage, solarPreview)
  }

  /** Each hour as its timestamp paired with its temperature. */
  function TemperatureSamples(hours: seq<Hour>): (xs: seq<(string, real)>)
    ensures |xs| == |hours|
    ensures forall i :: 0 <= i < |hours| ==> xs[i] == (hours[i].timestamp, hours[i].temperature)
  {
    seq(|hours|, i requires 0 <= i < |hours| => (hours[i].timestamp, hours[i].temperature))
  }

  /** Each hour as its timestamp paired with its solar reading. */
  function SolarSamples(hours: seq<Hour>): (xs: seq<(string, JsValue)>)
    ensures |xs| == |hours|
    ensures forall i :: 0 <= i < |hours| ==> xs[i] == (hours[i].timestamp, hours[i].solar)
  {
    seq(|hours|, i requires 0 <= i < |hours| => (hours[i].timestamp, hours[i].solar))
  }
}

=== FILE: js.dfy ===
/**
  The slice of JavaScript value semantics the controllers rely on: provider
  readings that may be numbers, `null` or missing, and the arithmetic results
  that `+` and `/` produce on them (`NaN`, the infinities).
 */
module Js {
  import opened Base

  /** A reading inside a provider JSON document, or an absent property. */
  datatype JsValue = Num(n: real) | Null | Undefined

  /** A JavaScript number as produced by `+` and `/` on readings. */
  datatype JsNum = Fin(x: real) | NaN | PosInf | NegInf

  /** A JSON object of readings, e.g. `{"2024010100": 21.3, ...}`, in key order. */
  type Series = seq<(string, JsValue)>

  /** The `parameter` object of a provider response: variable name to series. */
  type Params = seq<(string, Series)>

  /** The climate provider's "no reading" code. */
  const Sentinel: real := -999.0

  /** `obj[key]`: the value stored under `key`, `None` when the key is absent. */
  function Lookup<V>(obj: seq<(string, V)>, key: string): (r: Option<V>)
    ensures r.Some? <==> exists i :: 0 <= i < |obj| && obj[i].0 == key
    ensures r.Some? ==> exists i :: 0 <= i < |obj| && obj[i] == (key, r.value)
  {
    if |obj| == 0 then None
    else if obj[0].0 == key then Some(obj[0].1)
    else Lookup(obj[1..], key)
  }

  /** `series[key]` as JavaScript reads it: `undefined` for an absent key. */
  function Read(series: Series, key: string): JsValue
  {
    match Lookup(series, key)
    case Some(v) => v
    case None => Undefined
  }

  /** `acc + v` with `acc` a number: `null` counts as 0, `undefined` gives `NaN`. */
  function Add(acc: JsNum, v: JsValue): (r: JsNum)
    ensures acc.Fin? && v.Num? ==> r == Fin(acc.x + v.n)
    ensures v.Null? ==> r == acc
    ensures acc.NaN? || v.Undefined? ==> r.NaN?
  {
    match (acc, v)
    case (Fin(a), Num(n)) => Fin(a + n)
    case (Fin(a), Null) => Fin(a)
    case (Fin(_), Undefined) => NaN
    case (NaN, _) => NaN
    // the infinities do not arise from finite readings; kept total
    case (PosInf, Num(_)) => PosInf
    case (PosInf, Null) => PosInf
    case (PosInf, Undefined) => NaN
    case (NegInf, Num(_)) => NegInf
    case (NegInf, Null) => NegInf
    case (NegInf, Undefined) => NaN
  }

  /** The readings of a series, in key order. */
  function Values(series: Series): (vs: seq<JsValue>)
    ensures |vs| == |series|
    ensures forall i :: 0 <= i < |series| ==> vs[i] == series[i].1
  {
    seq(|series|, i requires 0 <= i < |series| => series[i].1)
  }

  /** The JavaScript sum of the readings, starting from 0 and adding left to right. */
  function SumValues(vs: seq<JsValue>): (r: JsNum)
    ensures (forall i :: 0 <= i < |vs| ==> !vs[i].Undefined?) ==> r == Fin(NumberSum(vs))
    ensures (exists i :: 0 <= i < |vs| && vs[i].Undefined?) ==> r == NaN
  {
    if |vs| == 0 then Fin(0.0)
    else
      var prefix := vs[..|vs| - 1];
      assert forall i :: 0 <= i < |prefix| ==> prefix[i] == vs[i];
      Add(SumValues(prefix), vs[|vs| - 1])
  }

  /** The arithmetic sum of the numbers among `vs` (`null` and `undefined` as 0). */
  function NumberSum(vs: seq<JsValue>): real
  {
    if |vs| == 0 then 0.0
    else NumberSum(vs[..|vs| - 1]) + ValueOf(vs[|vs| - 1])
  }

  /** The number held by a reading, 0 for `null` and `undefined`. */
  function ValueOf(v: JsValue): real
  {
    if v.Num? then v.n else 0.0
  }

  /** `total / count` in IEEE arithmetic, where `count` is a key count. */
  function Divide(total: JsNum, count: nat): (r: JsNum)
    ensures count > 0 && total.Fin? ==> r == Fin(total.x / count as real)
    ensures count == 0 && total.Fin? && total.x > 0.0 ==> r == PosInf
    ensures count == 0 && total.Fin? && total.x < 0.0 ==> r == NegInf
    ensures total.NaN? || (count == 0 && total == Fin(0.0)) ==> r == NaN
  {
    match total
    case Fin(t) =>
      if count > 0 then Fin(t / count as real)
      else if t > 0.0 then PosInf
      else if t < 0.0 then NegInf
      else NaN
    case NaN => NaN
    case PosInf => PosInf
    case NegInf => NegInf
  }

  /** `a < b` for a finite `b`: false whenever `a` is `NaN`. */
  predicate LessThan(a: JsNum, b: real)
  {
    match a
    case Fin(x) => x < b
    case NegInf => true
    case _ => false
  }
}

=== FILE: past_weather.dfy ===
/**
  `getPastWeather`: a place and a day count turned into one record per day
  of the trailing window that ends yesterday, keyed `Day_01`, `Day_02`, ...
 */
module PastWeather {
  import opened Base
  import opened Js
  import opened Calendar
  import opened DateText
  import opened Rounding
  import opened Geocoding
  import opened ClimateProvider

  /** `formatNasaValue`: the sentinel becomes `null`, other numbers are rounded. */
  function FormatNasaValue(v: JsValue): (r: Result<Option<real>>)
    ensures r == Ok(None) <==> v == Num(Sentinel)
    ensures v.Num? && v.n != Sentinel ==>
      r.Ok? && r.value.Some? && v.n - 0.005 <= r.value.value <= v.n + 0.005
    ensures r.Err? <==> !v.Num?
  {
    match v
    case Num(x) => if x == Sentinel then Ok(None) else Ok(Some(Round2(x)))
    // a `null` or missing reading has no number to format: a TypeError
    case Null => Err(MalformedResponse)
    case Undefined => Err(MalformedResponse)
  }

  /** Cleansing an already cleansed reading leaves it unchanged, unless it rounded onto the sentinel. */
  lemma CleanseIdempotent(x: real)
    requires Round2(x) != Sentinel
    ensures FormatNasaValue(Num(Round2(x))) == Ok(Some(Round2(x)))
  {
    Round2Idempotent(x);
  }

  /** A reading within half a cent of the sentinel is rounded onto it and vanishes when cleansed again. */
  lemma CleanseNearSentinel()
    ensures FormatNasaValue(Num(-999.001)) == Ok(Some(Sentinel))
    ensures FormatNasaValue(Num(Sentinel)) == Ok(None)
  {
    assert (-(-999.001) * 100.0 + 0.5).Floor == 99900;
  }

  const MaxDays: int := 30

  /** The requested day count clamped to 1..30. */
  function NumDays(days: int): (n: int)
    ensures 1 <= n <= MaxDays
    ensures days < 1 ==> n == 1
    ensures days > MaxDays ==> n == MaxDays
    ensures 1 <= days <= MaxDays ==> n == days
  {
    var capped := if days < MaxDays then days else MaxDays;
    if 1 < capped then capped else 1
  }

  /** The last `NumDays(days)` days before `today`. */
  function TrailingWindow(today: Date, days: int): (w: Window)
    requires Valid(today)
    ensures Valid(w.start) && Valid(w.end)
    ensures DayNumber(w.end) == DayNumber(today) - 1
    ensures DayNumber(w.end) - DayNumber(w.start) + 1 == NumDays(days)
    ensures !Before(w.end, w.start) && Before(w.end, today)
  {
    var end := PrevDay(today);
    var start := AddDays(end, -(NumDays(days) - 1));
    DayNumberOrder(end, start);
    DayNumberOrder(end, today);
    Window(start, end)
  }

  /** The window reaches back at most into the year before today's. */
  lemma TrailingWindowYears(today: Date, days: int)
    requires Valid(today)
    ensures var w := TrailingWindow(today, days);
      today.year - 1 <= w.start.year <= w.end.year <= today.year
  {
    var w := TrailingWindow(today, days);
    AdjacentYears(w.end, today);
    AdjacentYears(w.start, today);
    DayNumberOrder(w.end, w.start);
  }

  /** The window's ends as sent to the provider: each date in output form, hyphens dropped. */
  function WindowParams(today: Date, days: int): (p: (string, string))
    requires Valid(today) && 1 <= today.year <= 9999
    ensures var w := TrailingWindow(today, days);
      && 0 <= w.start.year <= 9999 && 0 <= w.end.year <= 9999
      && p == (CompactDate(w.start), CompactDate(w.end))
    ensures |p.0| == 8 && |p.1| == 8 && AllDigits(p.0) && AllDigits(p.1)
  {
    var w := TrailingWindow(today, days);
    TrailingWindowYears(today, days);
    IsoToCompact(w.start);
    IsoToCompact(w.end);
    CompactDateShape(w.start);
    CompactDateShape(w.end);
    (StripHyphens(IsoDate(w.start)), StripHyphens(IsoDate(w.end)))
  }

  // ---------------------------------------------------------------------------
  // Day records

  /** `Day_` followed by the 1-based position, zero-filled to two digits. */
  function DayKey(i: nat): string
  {
    "Day_" + PadStart(NatToString(i + 1), 2)
  }

  /** Keys start with `Day_` and have two digits up to `Day_99`. */
  lemma DayKeyShape(i: nat)
    ensures |DayKey(i)| >= 6 && DayKey(i)[..4] == "Day_"
    ensures i < 99 ==> |DayKey(i)| == 6
  {
    NatToStringLength(i + 1);
  }

  /** The number after `Day_` is the 1-based position. */
  lemma DayKeyNumber(i: nat)
    ensures ParseDecimal(DayKey(i)[4..]) == i + 1
  {
    assert DayKey(i)[4..] == PadStart(NatToString(i + 1), 2);
    ParseDecimalPadded(NatToString(i + 1), 2);
    ParseDecimalOfString(i + 1);
  }

  /** Distinct positions get distinct keys. */
  lemma DayKeyInjective(i: nat, j: nat)
    ensures DayKey(i) == DayKey(j) <==> i == j
  {
    DayKeyNumber(i);
    DayKeyNumber(j);
  }

  /** `{date, temperature_c, rainfall_mm, humidity, solar_radiation, ndvi}`. */
  datatype DayRecord = DayRecord(
    date: string,
    temperature: Option<real>,
    rainfall: Option<real>,
    humidity: Option<real>,
    solar: Option<real>,
    ndvi: Option<real>)

  /** The three series read for every day besides `T2M`; `None` when absent. */
  datatype Columns = Columns(rain: Option<Series>, humidity: Option<Series>, solar: Option<Series>)

  function ColumnsOf(params: Params): Columns
  {
    Columns(Lookup(params, "PRECTOTCORR"), Lookup(params, "RH2M"), Lookup(params, "ALLSKY_SFC_SW_DWN"))
  }

  /**
    One variable's reading for a day, cleansed: throws when the series is
    absent or the day's value is not a number, `null` for the sentinel.
   */
  function Cleansed(series: Option<Series>, key: string): (r: Result<Option<real>>)
    ensures r.Err? <==> series.None? || !Read(series.value, key).Num?
    ensures series.Some? && Read(series.value, key) == Num(Sentinel) ==> r == Ok(None)
  {
    match series
    case None => Err(MalformedResponse)
    case Some(s) => FormatNasaValue(Read(s, key))
  }

  /** The record for one `T2M` entry, or the exception building it throws. */
  function DayFor(cols: Columns, entry: (string, JsValue)): (r: Result<DayRecord>)
    ensures r.Ok? <==>
      && entry.1.Num?
      && Cleansed(cols.rain, entry.0).Ok?
      && Cleansed(cols.humidity, entry.0).Ok?
      && Cleansed(cols.solar, entry.0).Ok?
    ensures r.Ok? ==> r.value.date == ExpandDate(entry.0) && r.value.ndvi == None
    ensures r.Ok? ==>
      && cols.rain.Some? && cols.humidity.Some? && cols.solar.Some?
      && r.value.temperature == FormatNasaValue(entry.1).value
      && r.value.rainfall == FormatNasaValue(Read(cols.rain.value, entry.0)).value
      && r.value.humidity == FormatNasaValue(Read(cols.humidity.value, entry.0)).value
      && r.value.solar == FormatNasaValue(Read(cols.solar.value, entry.0)).value
    ensures r.Err? ==> r.fault == MalformedResponse
  {
    var key := entry.0;
    var t, p := FormatNasaValue(entry.1), Cleansed(cols.rain, key);
    var h, s := Cleansed(cols.humidity, key), Cleansed(cols.solar, key);
    if t.Ok? && p.Ok? && h.Ok? && s.Ok? then
      Ok(DayRecord(ExpandDate(key), t.value, p.value, h.value, s.value, None))
    else Err(MalformedResponse)
  }

  /** Reference definition: one `Day_NN` entry per `T2M` key, in key order. */
  function AssembleDays(cols: Columns, t2m: Series): (r: Result<seq<(string, DayRecord)>>)
    ensures r.Ok? <==> forall i :: 0 <= i < |t2m| ==> DayFor(cols, t2m[i]).Ok?
    ensures r.Ok? ==> |r.value| == |t2m|
    ensures r.Err? ==> r.fault == MalformedResponse
  {
    if forall i :: 0 <= i < |t2m| ==> DayFor(cols, t2m[i]).Ok? then Ok(Keyed(Records(cols, t2m)))
    else Err(MalformedResponse)
  }

  /** The records of the `T2M` entries, in key order, when every one can be built. */
  function Records(cols: Columns, t2m: Series): (rs: seq<DayRecord>)
    requires forall i :: 0 <= i < |t2m| ==> DayFor(cols, t2m[i]).Ok?
    ensures |rs| == |t2m|
    ensures forall i :: 0 <= i < |t2m| ==> Ok(rs[i]) == DayFor(cols, t2m[i])
  {
    seq(|t2m|, i requires 0 <= i < |t2m| => DayFor(cols, t2m[i]).value)
  }

  /** Each record under the `Day_NN` key of its position, in order. */
  function Keyed(records: seq<DayRecord>): (r: seq<(string, DayRecord)>)
    ensures |r| == |records|
    ensures forall i :: 0 <= i < |records| ==> r[i] == (DayKey(i), records[i])
  {
    seq(|records|, i requires 0 <= i < |records| => (DayKey(i), records[i]))
  }

  /** In an assembled list the i-th entry is keyed `Day_` with i+1 and carries the i-th key's date. */
  lemma AssembledEntries(cols: Columns, t2m: Series)
    ensures var r := AssembleDays(cols, t2m);
      r.Ok? ==> forall i :: 0 <= i < |t2m| ==>
        r.value[i].0 == DayKey(i) && r.value[i].1.date == ExpandDate(t2m[i].0) && r.value[i].1.ndvi == None
  {
  }

  /** One key whose entry cannot be built fails the whole assembly. */
  lemma AssemblyFails(cols: Columns, t2m: Series, i: nat)
    requires i < |t2m| && DayFor(cols, t2m[i]).Err?
    ensures AssembleDays(cols, t2m) == Err(MalformedResponse)
  {
  }

  /** The loop over the `T2M` keys that fills in the `Day_NN` entries. */
  method BuildDays(cols: Columns, t2m: Series) returns (r: Result<seq<(string, DayRecord)>>)
    ensures r == AssembleDays(cols, t2m)
    ensures r.Ok? ==> forall i :: 0 <= i < |t2m| ==>
      r.value[i].0 == DayKey(i) && r.value[i].1.date == ExpandDate(t2m[i].0) && r.value[i].1.ndvi == None
  {
    var records: seq<DayRecord> := [];
    var i := 0;
    while i < |t2m|
      invariant 0 <= i <= |t2m| && |records| == i
      invariant forall j :: 0 <= j < i ==> DayFor(cols, t2m[j]) == Ok(records[j])
    {
      var record := DayFor(cols, t2m[i]);
      if record.Err? {
        AssemblyFails(cols, t2m, i);
        return Err(record.fault);
      }
      records := records + [record.value];
      i := i + 1;
    }
    assert forall j :: 0 <= j < |t2m| ==> DayFor(cols, t2m[j]).Ok?;
    assert Records(cols, t2m) == records;
    AssembledEntries(cols, t2m);
    return Ok(Keyed(records));
  }

  // ---------------------------------------------------------------------------
  // The handler


  /** The third coordinate of the response geometry, or 0 when it is absent or zero. */
  function Elevation(geometry: Option<seq<real>>): (e: real)
    ensures geometry.Some? && |geometry.value| > 2 && geometry.value[2] != 0.0 ==> e == geometry.value[2]
    ensures geometry.None? || |geometry.value| <= 2 || geometry.value[2] == 0.0 ==> e == 0.0
  {
    match geometry
    case None => 0.0
    case Some(cs) => if |cs| > 2 && cs[2] != 0.0 then cs[2] else 0.0
  }

  datatype PastLocation = PastLocation(lat: real, long: real, elevation: real)

  datatype PastWeatherReport = PastWeatherReport(location: PastLocation, days: seq<(string, DayRecord)>)

  /**
    `getPastWeather`. `place` is the query text (empty when absent), `days`
    the parsed day count (`None` when absent), `today` the server's date.
   */
  function GetPastWeather(place: string, days: Option<int>, locationKey: bool, geocode: Geocoder,
                          today: Date, fetch: DailyProvider): (r: Reply<PastWeatherReport>)
    requires Valid(today) && 1 <= today.year <= 9999
    ensures place == "" || days.None? ==> r == Status(BadRequest, MissingParameters)
    ensures place != "" && days.Some? ==>
      match GetCoordinates(locationKey, place, geocode)
      case Err(f) => r == Status(ServerError, Caught(f))
      case Ok(c) =>
        var (start, end) := WindowParams(today, days.value);
        match fetch(c, start, end)
        case None => r == Status(ServerError, Caught(UpstreamFailed))
        case Some(resp) => r == Respond(c, resp)
  {
    if place == "" || days.None? then Status(BadRequest, MissingParameters)
    else
      match GetCoordinates(locationKey, place, geocode)
      case Err(f) => Status(ServerError, Caught(f))
      case Ok(c) =>
        var (start, end) := WindowParams(today, days.value);
        match fetch(c, start, end)
        case None => Status(ServerError, Caught(UpstreamFailed))
        case Some(resp) => Respond(c, resp)
  }

  /** The part of `getPastWeather` after the provider has answered. */
  function Respond(c: Coords, resp: DailyResponse): (r: Reply<PastWeatherReport>)
    ensures r == Status(NotFound, NoWeatherData) <==>
      resp.parameter.None? || Lookup(resp.parameter.value, "T2M").None?
    ensures r.Reply? <==>
      && resp.parameter.Some?
      && Lookup(resp.parameter.value, "T2M").Some?
      && AssembleDays(ColumnsOf(resp.parameter.value), Lookup(resp.parameter.value, "T2M").value).Ok?
    ensures r.Reply? ==>
      && r.body.location == PastLocation(c.lat, c.lon, Elevation(resp.geometry))
      && Ok(r.body.days) == AssembleDays(ColumnsOf(resp.parameter.value), Lookup(resp.parameter.value, "T2M").value)
    ensures r.Status? ==> r.code == NotFound || r == Status(ServerError, Caught(MalformedResponse))
  {
    if resp.parameter.None? || Lookup(resp.parameter.value, "T2M").None? then
      Status(NotFound, NoWeatherData)
    else
      match AssembleDays(ColumnsOf(resp.parameter.value), Lookup(resp.parameter.value, "T2M").value)
      case Err(f) => Status(ServerError, Caught(f))
      case Ok(records) => Reply(PastWeatherReport(PastLocation(c.lat, c.lon, Elevation(resp.geometry)), records))
  }

  /** Parameters are validated before the geocoder or the provider is consulted. */
  lemma ValidatedBeforeFetch(place: string, days: Option<int>, key: bool, g1: Geocoder, g2: Geocoder,
                             today: Date, f1: DailyProvider, f2: DailyProvider)
    requires Valid(today) && 1 <= today.year <= 9999
    requires place == "" || days.None?
    ensures GetPastWeather(place, days, key, g1, today, f1) == GetPastWeather(place, days, key, g2, today, f2)
  {
  }
}

=== FILE: rounding.dfy ===
/**
  Two-decimal rounding on exact reals, as the handlers apply it when they
  format a reading: ties go away from zero, because the magnitude is rounded
  and the sign put back in front.
 */
module Rounding {

  /** True when `r` has at most two decimals. */
  predicate IsCents(r: real)
  {
    (r * 100.0).Floor as real == r * 100.0
  }

  function Round2(x: real): (r: real)
    ensures x - 0.005 <= r <= x + 0.005
    ensures x >= 0.0 ==> r >= 0.0
    ensures x <= 0.0 ==> r <= 0.0
  {
    if x >= 0.0 then RoundUp(x) else -RoundUp(-x)
  }

  /** The rounded value has at most two decimals. */
  lemma Round2Cents(x: real)
    ensures IsCents(Round2(x))
  {
    if x >= 0.0 {
      RoundUpCents(x);
    } else {
      RoundUpCents(-x);
      CentsNegate(RoundUp(-x));
    }
  }

  lemma CentsNegate(r: real)
    requires IsCents(r)
    ensures IsCents(-r)
  {
    var k := (r * 100.0).Floor;
    var y := r * 100.0;
    assert y == k as real;
    assert (-r) * 100.0 == -y;
    assert (-k) as real == -y;
    assert ((-k) as real).Floor == -k;
  }

  /** Rounding of a non-negative magnitude, ties upward. */
  function RoundUp(x: real): (r: real)
    requires x >= 0.0
    ensures x - 0.005 < r <= x + 0.005
    ensures r >= 0.0
  {
    ((x * 100.0 + 0.5).Floor as real) / 100.0
  }

  lemma RoundUpCents(x: real)
    requires x >= 0.0
    ensures IsCents(RoundUp(x))
  {
    var k := (x * 100.0 + 0.5).Floor;
    assert RoundUp(x) * 100.0 == k as real;
  }

  /** A value that already has two decimals is left alone. */
  lemma {:induction false} Round2OfCents(r: real)
    requires IsCents(r)
    ensures Round2(r) == r
  {
    var k := (r * 100.0).Floor;
    if r >= 0.0 {
      assert (r * 100.0 + 0.5).Floor == k;
    } else {
      assert ((-r) * 100.0 + 0.5).Floor == -k;
    }
  }

  /** Rounding twice is rounding once. */
  lemma Round2Idempotent(x: real)
    ensures Round2(Round2(x)) == Round2(x)
  {
    Round2Cents(x);
    Round2OfCents(Round2(x));
  }

  /** Rounding never reverses the order of two values. */
  lemma {:induction false} Round2Monotone(x: real, y: real)
    requires x <= y
    ensures Round2(x) <= Round2(y)
  {
    if 0.0 <= x {
      assert (x * 100.0 + 0.5).Floor <= (y * 100.0 + 0.5).Floor;
    } else if y < 0.0 {
      assert ((-y) * 100.0 + 0.5).Floor <= ((-x) * 100.0 + 0.5).Floor;
    }
  }
}

=== FILE: stats.dfy ===
/**
  Sum, minimum, maximum and mean of a non-empty list of readings, as the
  hourly roll-up computes them with `reduce`, `Math.min(...)` and
  `Math.max(...)`.
 */
module Stats {

  /** The sum of the values, 0 for none. */
  function Sum(xs: seq<real>): real
  {
    if |xs| == 0 then 0.0 else Sum(xs[..|xs| - 1]) + xs[|xs| - 1]
  }

  function Min(xs: seq<real>): (m: real)
    requires |xs| > 0
    ensures m in xs
    ensures forall i :: 0 <= i < |xs| ==> m <= xs[i]
  {
    if |xs| == 1 then xs[0]
    else
      var rest := Min(xs[1..]);
      if xs[0] <= rest then xs[0] else rest
  }

  function Max(xs: seq<real>): (m: real)
    requires |xs| > 0
    ensures m in xs
    ensures forall i :: 0 <= i < |xs| ==> xs[i] <= m
  {
    if |xs| == 1 then xs[0]
    else
      var rest := Max(xs[1..]);
      if xs[0] >= rest then xs[0] else rest
  }

  function Mean(xs: seq<real>): real
    requires |xs| > 0
  {
    Sum(xs) / |xs| as real
  }

  /** Every reading bounds the sum from the side it lies on. */
  lemma {:induction false} SumBounds(xs: seq<real>, lo: real, hi: real)
    requires forall i :: 0 <= i < |xs| ==> lo <= xs[i] <= hi
    ensures |xs| as real * lo <= Sum(xs) <= |xs| as real * hi
  {
    if |xs| > 0 {
      var prefix := xs[..|xs| - 1];
      assert forall i :: 0 <= i < |prefix| ==> prefix[i] == xs[i];
      SumBounds(prefix, lo, hi);
    }
  }

  /** The mean lies between the minimum and the maximum. */
  lemma MeanBetween(xs: seq<real>)
    requires |xs| > 0
    ensures Min(xs) <= Mean(xs) <= Max(xs)
  {
    MeanWithin(xs, Min(xs), Max(xs));
  }

  lemma MeanWithin(xs: seq<real>, lo: real, hi: real)
    requires |xs| > 0
    requires forall i :: 0 <= i < |xs| ==> lo <= xs[i] <= hi
    ensures lo <= Mean(xs) <= hi
  {
    SumBounds(xs, lo, hi);
    QuotientBetween(Sum(xs), |xs| as real, lo, hi);
  }

  lemma QuotientBetween(total: real, n: real, lo: real, hi: real)
    requires n > 0.0
    requires n * lo <= total <= n * hi
    ensures lo <= total / n <= hi
  {
    var q := total / n;
    assert q * n == total;
    assert n * (q - lo) >= 0.0;
    assert n * (hi - q) >= 0.0;
  }
}

=== FILE: weather.dfy ===
/**
  `getWeatherData`: the hourly endpoint. Coordinates are required, the dates
  default to a fixed three-day span, and the provider's answer is handed to
  the hourly roll-up.
 */
module Weather {
  import opened Base
  import opened Js
  import opened Calendar
  import opened DateText
  import opened Rounding
  import opened HourlyRollup

  /**
    What the hourly provider answers for latitude, longitude, start and end
    (the query text as given), or `None` when the request fails.
   */
  type HourlyProvider = (string, string, string, string) -> Option<HourlyResponse>

  const DefaultStart: string := "20230101"
  const DefaultEnd: string := "20230103"

  /** The date as sent to the provider: the fallback when none is given, otherwise the given text without its hyphens. */
  function ProviderDate(date: string, fallback: string): (r: string)
    ensures date == "" ==> r == fallback
    ensures date != "" ==> r == StripHyphens(date)
    ensures date != "" ==> '-' !in r && |r| == |date| - multiset(date)['-']
    ensures '-' !in fallback ==> '-' !in r
  {
    if date == "" then fallback
    else
      StripHyphensLength(date);
      StripHyphens(date)
  }

  /** An output-form date is sent in the provider's form. */
  lemma ProviderDateOfIso(d: Date, fallback: string)
    requires Valid(d) && 0 <= d.year <= 9999
    ensures ProviderDate(IsoDate(d), fallback) == CompactDate(d)
  {
    IsoToCompact(d);
  }

  /** A date already in the provider's form passes unchanged. */
  lemma ProviderDateOfCompact(d: Date, fallback: string)
    requires Valid(d) && 0 <= d.year <= 9999
    ensures ProviderDate(CompactDate(d), fallback) == CompactDate(d)
  {
    DigitsHaveNoHyphen(CompactDate(d));
  }

  /**
    `getWeatherData`. Absent query parameters are empty strings. A provider
    failure and a malformed response both end in status 500.
   */
  function GetWeatherData(latitude: string, longitude: string, startDate: string, endDate: string,
                          fetch: HourlyProvider): (r: Reply<WeatherReport>)
    ensures latitude == "" || longitude == "" ==> r == Status(BadRequest, MissingParameters)
    ensures latitude != "" && longitude != "" ==>
      var start, end := ProviderDate(startDate, DefaultStart), ProviderDate(endDate, DefaultEnd);
      match fetch(latitude, longitude, start, end)
      case None => r == Status(ServerError, Caught(UpstreamFailed))
      case Some(resp) =>
        match ProcessWeatherData(resp, start, end)
        case Err(f) => r == Status(ServerError, Caught(f))
        case Ok(report) =>
          && r == Reply(report)
          && report.requested == start + " to " + end
    ensures r.Status? ==> r.code == BadRequest || r.code == ServerError
  {
    if latitude == "" || longitude == "" then Status(BadRequest, MissingParameters)
    else
      var start, end := ProviderDate(startDate, DefaultStart), ProviderDate(endDate, DefaultEnd);
      match fetch(latitude, longitude, start, end)
      case None => Status(ServerError, Caught(UpstreamFailed))
      case Some(resp) =>
        match ProcessWeatherData(resp, start, end)
        case Err(f) => Status(ServerError, Caught(f))
        case Ok(report) => Reply(report)
  }

  /** Without coordinates the provider is never consulted. */
  lemma CoordinatesCheckedFirst(latitude: string, startDate: string, endDate: string,
                                f1: HourlyProvider, f2: HourlyProvider)
    ensures GetWeatherData(latitude, "", startDate, endDate, f1)
         == GetWeatherData(latitude, "", startDate, endDate, f2)
    ensures GetWeatherData("", latitude, startDate, endDate, f1)
         == GetWeatherData("", latitude, startDate, endDate, f2)
  {
  }

  /** The -999 solar code is averaged in: readings -999 and 1 average to -499. */
  lemma SolarSentinelAveragedIn()
    ensures SolarAverage([Hour("2024-01-01 00:00", 20.0, Num(Sentinel), Num(0.0)),
                          Hour("2024-01-01 01:00", 21.0, Num(1.0), Num(0.0))])
         == Some(Fin(-499.0))
  {
    var hours := [Hour("2024-01-01 00:00", 20.0, Num(Sentinel), Num(0.0)),
                  Hour("2024-01-01 01:00", 21.0, Num(1.0), Num(0.0))];
    var vs := SolarValues(hours);
    assert vs == [Num(Sentinel), Num(1.0)];
    assert [Num(Sentinel)][..0] == [];
    assert NumberSum([Num(Sentinel)]) == -999.0;
    assert vs[..1] == [Num(Sentinel)];
    assert NumberSum(vs) == -998.0;
    assert IsCents(-499.0);
    Round2OfCents(-499.0);
  }
}
